=== FILE: README.md ===
# Portfolio gallery record pipeline, in Dafny

The portfolio is a small Streamlit site listing course deliverables
("proyectos") read from a YAML file. Its real logic is the record pipeline,
and that pipeline is what this project models and proves things about:

- `lib/data.py`:
  - the loading loop that normalises `slug`, `tags` and `year` in each record;
  - `slugify`;
  - the free-text `search`.
- `app.py`, the home page:
  - `get_projects`' twelve `setdefault` calls;
  - the cover choice of `resolve_imgur_cover`;
  - the `minify_html` whitespace rewrite;
  - the `match` predicate with its "(Todas)"/"(Todos)" sentinels;
  - the newest-first sort;
  - the link buttons of a card.
- `Proyectos.py`, the gallery page:
  - the facet chain `apply_filters`;
  - the first-match lookup by slug;
  - the sorted option pools of the sidebar.

Files:

- `seqs.dfy`: `Options` (an `Option` type) and `Seqs`, order-preserving
  filtering (a Python list comprehension with a condition) with its
  subsequence, multiset and composition lemmas.
- `pytext.dfy`: `PyText`, Python's `str` operations the code uses:
  - `lower`, `strip`, `split()`, `" ".join`, `in` and `startswith`;
  - `str(int)`, and `int(str)` for an optional sign followed by digits.
- `pyvalues.dfy`: `PyValues`. A record is a `map<string, Value>` over
  Python's None, bool, int, str, list and dict, with truthiness, `dict.get`,
  `str()` and `int()`.
- `data.dfy`: `Data`, for `lib/data.py`.
- `app.dfy`: `App`, for `app.py`.
- `proyectos.dfy`: `Proyectos`, for `Proyectos.py`.

Where the source changes state in place, the model does so as well:

- `Data.LoadProjects` and `App.ApplyDefaults` update an array of records
  in place, one record at a time. They share one loop, `Seqs.MapInPlace`.
- `App.SortByRecency` reorders an array.

Each method is proved against a function that describes one record or the
sorted result. The page-level rules are pure functions. The module-level
globals they read become parameters: the query, the select boxes and the
sidebar selection.

Some behaviour of the code is easy to misread, and the model follows the
code:

- `slugify` does not collapse runs of whitespace: `"a  b"` gives `"a--b"`.
  It strips before it deletes characters, so `"x !"` gives `"x-"`.
  Whitespace other than a space survives when deleted characters shielded
  it from the strip (`"!\tx"` gives `"\tx"`). Slugifying again can
  therefore change a slug, and a slug can be empty.
- The loading loop does not clamp the year: `"-5"` loads as -5.
- The search of `lib/data.py` does not look at `year` or `week`. Only the
  home page's `match` does.

## Model

| member | source | states |
|---|---|---|
| Data.Slugify | lib/data.py:19-23 | the slug has no plain space; every character is in a-z, 0-9, á é í ó ú ñ ü or `-`, or is whitespace; it is no longer than the text; "" gives "" |
| Data.SlugifyHyphenPerSpace | lib/data.py:20-22 | for text of slug characters and spaces, the slug is the stripped text with every space replaced by its own hyphen, so nothing is collapsed |
| Data.SlugifyTrimmedSlugText | lib/data.py:21-22 | such text with nothing to strip keeps its length: each space becomes one hyphen |
| Data.SlugifyFixesCleanSlug | lib/data.py:19-23 | a string made only of slug characters is its own slug |
| Data.SlugifyIdempotentWithoutWhitespace | lib/data.py:19-23 | slugifying a slug that holds no whitespace leaves it unchanged |
| Data.SlugifyKeepsSpaceRuns | lib/data.py:22 | "a  b" slugifies to "a--b" |
| Data.SlugifyTrailingHyphen | lib/data.py:20-22 | "x !" slugifies to "x-": the strip runs before the deletion |
| Data.SlugifyKeepsInnerTab | lib/data.py:20-21 | "!\tx" slugifies to "\tx": a tab behind deleted punctuation survives |
| Data.SlugifyStripsTab | lib/data.py:20 | "\tx" slugifies to "x" |
| Data.SlugifyNotIdempotent | lib/data.py:19-23 | slugify applied twice to "!\tx" differs from once |
| Data.SlugifyTitle | lib/data.py:19-23 | "Gestos VR" slugifies to "gestos-vr" |
| Data.NormalizeTags | lib/data.py:14 | every normalised tag is a str |
| Data.NormalizeYear | lib/data.py:15-16 | its cases are stated by NormalizeYearCases and NormalizeYearOfString |
| Data.NormalizeWritesOnly | lib/data.py:13-16 | one loop iteration writes exactly the keys slug, tags and year; every other key keeps its value |
| Data.Normalize | lib/data.py:13-16 | one loop iteration; what it writes is stated by NormalizeWritesOnly, NormalizeTypes, NormalizeSlug, NormalizeTagList and NormalizeStableTagsYear |
| Data.NormalizeTypes | lib/data.py:13-16 | afterwards the slug is a str, the tags a list of str and the year an int |
| Data.NormalizeSlug | lib/data.py:13 | the slug comes from the explicit slug when it is a non-empty str, otherwise from the title, and is "" when both are missing |
| Data.NormalizeTagList | lib/data.py:14 | missing or empty tags become []; a list keeps its length and order, element i becoming `str` of raw element i |
| Data.NormalizeYearCases | lib/data.py:15-16 | a falsy year and one `int()` rejects become 0; an int is kept; a str holding an integer becomes that integer |
| Data.NormalizeYearOfString | lib/data.py:15 | the decimal text of any integer, negative ones included, loads as that integer |
| Data.NormalizeStableTagsYear | lib/data.py:13-16 | a normalised record can be loaded again, and loading it again leaves tags and year unchanged |
| Seqs.MapInPlace | lib/data.py:12-16 | the loop that updates each element of an array in place: afterwards element i is the update of the old element i |
| Data.LoadProjects | lib/data.py:12-17 | the loop normalises each record in place; the array keeps its length and order |
| Data.Search | lib/data.py:25-44 | an empty query returns the list itself; otherwise the result is a subsequence of the input that holds each record with a hit as often as the input does, and no other record |
| Data.Haystack | lib/data.py:29-42 | the twelve fields joined by spaces and lower-cased; HitByTitle states that the title leads it |
| Data.Tokens | lib/data.py:43 | the lower-cased query split on whitespace: a one-word query is its own token (HitWord), the tokens of a space-joined query concatenate (TokensAppend), and a blank query has none (SearchBlankQuery) |
| Data.Hit | lib/data.py:28-43 | every token occurs in the haystack; HitWord, HitAppend and HitByTitle state its behaviour |
| Data.HitWord | lib/data.py:43 | a one-word query is a hit exactly when the haystack contains the lower-cased word, so a record without it is dropped |
| Data.HitByTitle | lib/data.py:29-43 | a record whose lower-cased title holds every query token is a hit |
| Data.SearchBlankQuery | lib/data.py:43 | a whitespace-only query has no tokens and keeps every record |
| Data.TokensAppend | lib/data.py:27-43 | the tokens of `q1 + " " + q2` are the tokens of q1 followed by those of q2 |
| Data.HitAppend | lib/data.py:29-43 | a record is a hit for `q1 q2` exactly when it is a hit for both q1 and q2 |
| Data.SearchNarrows | lib/data.py:28-44 | searching `q1 q2` gives the results of q1 filtered by q2, a subsequence of the results of q1 |
| Seqs.FilterSubseq | lib/data.py:44 | a list comprehension with a condition keeps the order of what it keeps |
| Seqs.FilterMultiset | lib/data.py:44 | a list comprehension keeps every accepted element as often as it occurs and drops the rest |
| PyText.Strip | lib/data.py:20 | `strip` leaves no whitespace at either end, never lengthens, and leaves a string without whitespace at its ends unchanged |
| PyText.StripEnds | lib/data.py:20 | the text is its leading whitespace, then the stripped text, then its trailing whitespace: only whitespace at the two ends is removed |
| PyText.StripVisible | lib/data.py:20 | `strip` keeps every non-whitespace character, in order |
| PyText.VisibleAppend | app.py:106-107 | the non-whitespace characters of a concatenation are those of its parts, in order |
| PyText.Lower | lib/data.py:42 | `lower` keeps the length; LowerAppend states that it works character by character |
| PyText.LowerAppend | lib/data.py:42 | lower-casing a concatenation lower-cases each part |
| PyText.Split | lib/data.py:43 | every token of `split()` is non-empty and holds no whitespace; SplitWord, SplitAppendSep and SplitAllSpace together fix the result: a word is its own token, two texts joined by any whitespace character split into the concatenation of their splits, whitespace alone gives none |
| PyText.WordLenAll | lib/data.py:43 | a text without whitespace is a single run to its end |
| PyText.SplitWord | lib/data.py:43 | a non-empty text without whitespace splits into exactly itself |
| PyText.SplitAllSpace | lib/data.py:43 | a whitespace-only text has no tokens |
| PyText.ContainsExtend | lib/data.py:43 | a substring of a text is a substring of every text that starts with it |
| PyText.AllInJoinHead | lib/data.py:29-43 | every token found in the first part of a space-joined list is found in the lower-cased join |
| PyText.SplitAppend | lib/data.py:43 | `split()` of two texts joined by a space is the concatenation of their splits |
| PyText.SplitAppendSep | lib/data.py:43 | `split()` of two texts joined by any whitespace character (tab, newline, no-break space, ...) is the concatenation of their splits |
| PyText.SplitAtTab | lib/data.py:43 | `"a\tb".split()` is `["a", "b"]` |
| PyText.ParseInt | lib/data.py:15 | `int()` of a str; ParseIntOfIntToString, ParseIntOfDigits and ParseIntOfNegative state what it accepts |
| PyText.ParseIntOfIntToString | lib/data.py:15 | `int(str(n)) == n` for every integer |
| PyText.ParseIntOfDigits | lib/data.py:15 | the decimal text of a natural number parses to that number |
| PyText.ParseIntOfNegative | lib/data.py:15 | a minus sign before the decimal text of n parses to -n |
| PyText.IntToString | app.py:160 | `str()` of an int; IntToStringInjective and ParseIntOfIntToString state its behaviour |
| PyText.IntToStringInjective | app.py:160 | two integers have the same `str` exactly when they are equal |
| App.ResolveCoverWith | app.py:97-103 | the cover is chosen in order: the stripped `cover_imgur` if it is a hosted image, then the table entry for the stripped `cover`, then the stripped `cover` if it is a hosted image, then the placeholder |
| App.ResolveCoverHosted | app.py:97-103 | when every table entry is a hosted image, so is the chosen cover |
| App.ResolveImgurCover | app.py:94-103 | with the empty table, the cover always starts with `https://i.imgur.com/` |
| App.CollapseTagGaps | app.py:106 | the substitution keeps the first and last character and never lengthens the text |
| App.CollapseTagGapsFree | app.py:106 | afterwards no `>` is followed by whitespace and then `<` |
| App.CollapseTagGapsNoGap | app.py:106 | text without such a gap is left unchanged |
| App.AfterGapVisible | app.py:106 | a whitespace run followed by `<` holds no non-whitespace character besides that `<` and what follows it |
| App.CollapseTagGapsVisible | app.py:106 | the substitution removes only whitespace: the non-whitespace characters stay, in order |
| App.SquashSpaces | app.py:107 | the substitution never lengthens the text and keeps a first or last character that is not whitespace |
| App.SquashSpacesNoPair | app.py:107 | afterwards no two whitespace characters are adjacent |
| App.SquashSpacesKeepsGapFree | app.py:107 | squashing whitespace does not create a `>` whitespace `<` gap |
| App.SquashSpacesNoPairId | app.py:107 | text without adjacent whitespace is left unchanged |
| App.SquashSpacesVisible | app.py:107 | the substitution changes only whitespace: the non-whitespace characters stay, in order |
| App.MinifyHtml | app.py:105-108 | the result has no whitespace at either end, no two adjacent whitespace characters, and no `>` followed by whitespace and `<` |
| App.MinifyHtmlVisible | app.py:105-108 | minifying keeps every non-whitespace character, in order, so markup and text survive |
| App.MinifyHtmlIdempotent | app.py:105-108 | minifying twice gives the same as minifying once |
| App.SetDefaults | app.py:115-127 | after the `setdefault` calls the keys are the old keys plus the listed ones; a present key keeps its value; a missing key gets the value of its first entry |
| App.SetDefaultsKeeps | app.py:115-127 | `setdefault` never overwrites a key that is present |
| App.DefaultKeysCons | app.py:115-127 | the keys of a list of defaults are its first key and the keys of the rest |
| App.SetDefaultsIdempotent | app.py:115-127 | repeating the same `setdefault` calls changes nothing |
| App.WithDefaults | app.py:115-127 | `get_projects`' twelve `setdefault` calls on one record; WithDefaultsIdempotent, WithDefaultsKeepsNormalized and WithDefaultsTitle state what they do |
| App.WithDefaultsIdempotent | app.py:114-127 | defaulting a record twice equals defaulting it once |
| App.WithDefaultsKeepsNormalized | app.py:113-127 | defaulting never overwrites the slug, tags and year the loader wrote |
| App.WithDefaultsTitle | app.py:116 | a record without a title gets "Proyecto sin título" |
| App.ApplyDefaults | app.py:115-127 | every record of the array gets the `setdefault` calls, in place |
| App.GetProjects | app.py:113-128 | each record ends up normalised and then defaulted, in place, in its original position |
| App.MatchHaystack | app.py:153-157 | eight fields joined by spaces and lower-cased; MatchByTitle states that the title leads it |
| App.Match | app.py:152-161 | the three tests; MatchSentinels, MatchWord, MatchNarrows, MatchModalityFacet, MatchYearFacet and MatchByTitle state them |
| App.MatchWord | app.py:158 | with both sentinels, a one-word query matches exactly when the haystack contains the word |
| App.MatchByTitle | app.py:153-158 | with both sentinels, a record whose lower-cased title holds every query token matches |
| App.MatchSentinels | app.py:152-161 | with "(Todas)" and "(Todos)" selected, only the query decides |
| App.MatchNarrows | app.py:158 | a query `q1 q2` matches exactly when q1 and q2 both match |
| App.MatchModalityFacet | app.py:159 | a chosen modality drops a record whose modality list is missing or empty |
| App.MatchYearFacet | app.py:160 | a record with int year y is kept by the year box holding `str(n)` exactly when n = y |
| App.Filtered | app.py:163 | the filtered list is a subsequence of the records and holds each matching record as often as they do, and nothing else |
| App.FilteredAll | app.py:152-163 | no query and both sentinels keep every record |
| App.KeyGeTotal | app.py:164 | tuple comparison of sort keys is total, and antisymmetric |
| App.SortDescPermutation | app.py:164 | the sort permutes the list |
| App.SortDescSorted | app.py:164 | every record's (year, week, order) key is at least that of each record after it |
| App.SortDescStable | app.py:164 | records with equal keys keep their relative order |
| App.SortDesc | app.py:164 | keeps the length; SortDescPermutation, SortDescSorted and SortDescStable state that it is the stable newest-first sort |
| App.SortByRecency | app.py:164 | the array is reordered in place to the stable newest-first order |
| App.Listing | app.py:163-164 | the home page's list, for records whose year, week and order are absent or ints; ListingSpec states what it holds and in which order |
| App.ListingSpec | app.py:163-164 | for records whose year, week and order are absent or ints, the home page's list holds exactly the matching records as often as they occur, sorted newest first by `(year, week, order)`, ties in input order |
| App.LinkButtons | app.py:187-190 | there are no link buttons exactly when no link is truthy |
| App.CardButtons | app.py:181-192 | a card always has a button; the "Sin enlaces" placeholder appears exactly when no link is truthy, and then alone |
| App.CardButtonsLinks | app.py:182-190 | a card has a button for a link exactly when the link is truthy, and each button points at its own link |
| App.CardButtonsOrder | app.py:187-190 | the link buttons come in the order Demo, Repo, Video, Reporte |
| App.CardButtonsCount | app.py:187-192 | a card has at most four buttons, one per truthy link when it has any |
| App.CardButtonLabels | app.py:187-192 | the button labelled "Sin enlaces" is there exactly when no link is truthy, and no two buttons of a card share a label |
| App.RankedLabels | app.py:188-191 | link buttons in Demo, Repo, Video, Report order carry four distinct labels, none of them "Sin enlaces" |
| Proyectos.Narrow | Proyectos.py:28-35 | an optional facet step keeps only records of its input |
| Proyectos.Stage | Proyectos.py:28-37 | filtering by the earlier facets and then by an active facet is filtering once by the conjunction; an inactive facet changes nothing |
| Proyectos.ApplyFilters | Proyectos.py:26-38 | the facet chain; ApplyFiltersSelected, ApplyFiltersSubseq and ApplyFiltersNone state what it keeps |
| Proyectos.ApplyFiltersSelected | Proyectos.py:26-38 | the chain keeps exactly the records every active facet and the search select, in input order; a record only has to be of a searchable shape if it survives the facets, and of a comparable week only if it survives modality and device |
| Proyectos.ApplyFiltersSubseq | Proyectos.py:26-38 | the result is a subsequence of the input and holds each selected record as often as the input does |
| Proyectos.FacetDroppedNeverSearched | Proyectos.py:26-38 | a record a facet drops is never searched: one with a None summary and the wrong modality is accepted and filtered out |
| Proyectos.ApplyFiltersNone | Proyectos.py:26-38 | with no selection and no query the input comes back unchanged |
| Proyectos.ModalityFacetMeets | Proyectos.py:28-29 | the modality facet keeps a record exactly when its modalities and the chosen ones share an element |
| Proyectos.MissingFieldDropped | Proyectos.py:30-35 | an active device or deliverable facet drops a record lacking that field |
| Proyectos.WeekFacetText | Proyectos.py:32-33 | weeks compare as text: a stored int week n is kept when `str(n)` is selected |
| Proyectos.SlugIndex | Proyectos.py:41 | the index found holds the slug and no earlier record does; there is none exactly when no record has the slug |
| Proyectos.FindBySlug | Proyectos.py:40-43 | the record found has the slug; "not found" exactly when no record has it |
| Proyectos.SlugIndexAppend | Proyectos.py:41 | in a list of two parts the first match is the first part's match if it has one, otherwise the second part's match shifted past the first part, otherwise none |
| Proyectos.FindBySlugAppend | Proyectos.py:41 | slugs need not be unique: a match in the first part of a list wins over any later one |
| Proyectos.LexLessIrreflexive | Proyectos.py:15 | no string sorts before itself |
| Proyectos.LexLessTransitive | Proyectos.py:15 | string order is transitive |
| Proyectos.LexLessTotal | Proyectos.py:15 | any two different strings are ordered one way or the other |
| Proyectos.StrictlySortedDistinct | Proyectos.py:15-21 | a strictly ascending list holds each value once |
| Proyectos.SortedSetSpec | Proyectos.py:15-21 | `sorted(set(xs))` is strictly ascending and holds exactly the values of xs |
| Proyectos.AllModalitiesMembers | Proyectos.py:15 | the flattened modalities are exactly those some record lists |
| Proyectos.ModPool | Proyectos.py:15 | the modality pool; ModPoolSpec states it |
| Proyectos.ModPoolSpec | Proyectos.py:15 | the modality pool is strictly ascending and holds exactly the modalities some record lists |
| Proyectos.TruthyTextsMembers | Proyectos.py:17-21 | the collected field values are exactly the non-empty str values some record holds |
| Proyectos.DevicePool | Proyectos.py:17 | the device pool; DevicePoolSpec and DevicePoolSkipsBlank state it |
| Proyectos.DevicePoolSpec | Proyectos.py:17 | for records whose device is falsy (missing, None, "" and the like) or a str, the device pool is strictly ascending and holds exactly the non-empty str devices |
| Proyectos.DevicePoolSkipsBlank | Proyectos.py:17 | a None device and a missing one add nothing to the pool |
| Proyectos.TypePool | Proyectos.py:21 | the deliverable pool; TypePoolSpec states it |
| Proyectos.TypePoolSpec | Proyectos.py:21 | for records whose deliverable is falsy or a str, the deliverable pool is strictly ascending and holds exactly the non-empty str deliverables |
| Proyectos.TruthyWeeksMembers | Proyectos.py:19 | the collected weeks are exactly the truthy week values of the records |
| Proyectos.SortedWeeksSpec | Proyectos.py:19 | sorting a set of weeks by `int` gives each value once, with non-decreasing keys |
| Proyectos.WeekPool | Proyectos.py:19 | the week pool; WeekPoolSpec states it |
| Proyectos.WeekPoolSpec | Proyectos.py:19 | the week pool holds each truthy week once, with non-decreasing `int` keys, and `int()` succeeds on each |

## Left out

- Reading and parsing the YAML file (lib/data.py:9-11) is I/O and a foreign library. `Data.LoadProjects` starts from the parsed list.
- Streamlit plumbing is left out because it is UI:
  - page configuration and CSS;
  - the home page's widgets (app.py:142-150), including its own modality and year lists;
  - the sidebar widgets;
  - query-parameter reading (Proyectos.py:9-11);
  - the detail view and `st.stop` (Proyectos.py:44-73);
  - grid output.

  `App.Match` receives the query as the page leaves it, already stripped and lower-cased.
- The HTML markup of cards is presentation. A button is modelled as its kind together with the link value it points at; the f-string text around it is not modelled.
- Data.Slugify: lower-cases only ASCII and Latin-1 capitals. Python's full Unicode case mapping is not modelled.
- PyText.Strip: whitespace is the fixed set of characters for which CPython's `str.isspace` holds. The same set stands for the regex class `\s`.
- PyText.ParseIntOfIntToString: `int()` of a str is modelled as optional surrounding whitespace, an optional sign and ASCII digits. Underscores and non-ASCII digits are not accepted. Floats are not part of the value type.
- Python's cross-type equality is not modelled: `1 == True` and `1 == 1.0` hold in Python, but the model's values are distinct. This matters only for the `in` tests of the facets and for set de-duplication in the pools.
- `str()` of a list or a dict (its repr) is not modelled. Every caller that applies `str()` requires a scalar there.
- Records that make Python raise are excluded by preconditions rather than reproduced:
  - a truthy non-str slug, or a non-str title, reaching `slugify` (lib/data.py:13, 20);
  - truthy `tags` that cannot be iterated, such as an int (lib/data.py:14);
  - a truthy non-str `cover_imgur` or `cover` reaching `strip` (app.py:98, 100);
  - a `modality` that is present but None when the modality facet is active (Proyectos.py:29);
  - a non-str element reaching `join`;
  - sort keys that cannot be compared;
  - a `links` value that is not a dict;
  - a missing `slug` in the lookup;
  - a week `int()` rejects.
- Proyectos.DevicePoolSpec: a truthy device that is not a str (an int, say) is excluded by the precondition, because the pools are modelled as lists of strings; Python would sort such values in. The same holds for Proyectos.TypePoolSpec and deliverables.
- Proyectos.WeekPoolSpec: the relative order of two weeks with the same `int` key, such as `6` and `"6"`, depends on Python's set iteration order. Only non-decreasing keys are stated.
- App.Listing, App.ListingSpec and App.SortByRecency: every record's year, week and order must be absent, an int or a bool. Python also sorts records whose week values are all str, by string comparison (`"6"` before `"10"` when newest first), and raises only when it has to compare a str with an int. The model's sort key is integer, so str sort keys are not modelled.
- Data.Search, Data.LoadProjects, App.Match, Proyectos.ApplyFilters and Proyectos.ModPoolSpec: the list fields (`tags`, `tools`, `modality`, `input_types`, `output_types`) are taken to hold lists, and the preconditions exclude any other value there. Python does not raise on two such shapes, which the model leaves out:
  - A str in a list field. Python joins it character by character (`"voz"` is searched as `"v o z"`), tests `in` on it as a substring (app.py:159, Proyectos.py:29), and iterates its characters for the modality pool (Proyectos.py:15).
  - A dict in `tags` or `modality`. Python loads a dict `tags` as the list of its keys (lib/data.py:14), and the modality facet tests a dict `modality` by its keys (Proyectos.py:29).
- App.SortByRecency: Python's `list.sort` is a library routine, so its algorithm is not part of the source. The method stores the stable newest-first order, given by the reference insertion sort `App.SortDesc`, into the array in one parallel assignment. The steps of Timsort are not modelled.

=== FILE: app.dfy ===
/**
 * app.py: the home page's record pipeline. Records are defaulted, matched
 * against the page's three filters, sorted newest first and drawn as cards;
 * the model keeps the cover choice, the markup minifier and the card's
 * link buttons.
 */
module App {
  import opened Options
  import opened Seqs
  import opened PyText
  import opened PyValues
  import opened Data

  // ---------------------------------------------------------------- covers

  const ImgurPrefix: string := "https://i.imgur.com/"
  const ImgurPlaceholder: string := "https://i.imgur.com/U2p7Z3W.jpg"

  /** `IMGUR_MAP`, the optional table from local cover names to hosted images; it is empty. */
  const ImgurMap: map<string, string> := map[]

  /** `(p.get(k) or "").strip()`. */
  function StrippedField(p: Record, k: string): string
    requires TextOrFalsy(p, k)
  {
    if Truthy(Get(p, k)) then Strip(Get(p, k).s) else ""
  }

  /**
   * `resolve_imgur_cover` with the table as a parameter. The result is one
   * of the four candidates, tried in order: the stripped `cover_imgur` when
   * it is a hosted image, the table's entry for the stripped `cover`, the
   * stripped `cover` when it is a hosted image, the placeholder.
   */
  function ResolveCoverWith(p: Record, table: map<string, string>): (r: string)
    requires TextOrFalsy(p, "cover_imgur") && TextOrFalsy(p, "cover")
    ensures StartsWith(StrippedField(p, "cover_imgur"), ImgurPrefix) ==> r == StrippedField(p, "cover_imgur")
    ensures !StartsWith(StrippedField(p, "cover_imgur"), ImgurPrefix) && StrippedField(p, "cover") in table ==>
      r == table[StrippedField(p, "cover")]
    ensures !StartsWith(StrippedField(p, "cover_imgur"), ImgurPrefix) && StrippedField(p, "cover") !in table ==>
      r == (if StartsWith(StrippedField(p, "cover"), ImgurPrefix) then StrippedField(p, "cover") else ImgurPlaceholder)
  {
    var url := StrippedField(p, "cover_imgur");
    if StartsWith(url, ImgurPrefix) then url
    else
      var key := StrippedField(p, "cover");
      if key in table then table[key]
      else if StartsWith(key, ImgurPrefix) then key
      else ImgurPlaceholder
  }

  /** When every table entry is a hosted image, so is the chosen cover. */
  lemma ResolveCoverHosted(p: Record, table: map<string, string>)
    requires TextOrFalsy(p, "cover_imgur") && TextOrFalsy(p, "cover")
    requires forall k :: k in table ==> StartsWith(table[k], ImgurPrefix)
    ensures StartsWith(ResolveCoverWith(p, table), ImgurPrefix)
  {
    assert ImgurPlaceholder == ImgurPrefix + "U2p7Z3W.jpg";
  }

  /** `resolve_imgur_cover`: the table is empty, so the cover is always a hosted image. */
  function ResolveImgurCover(p: Record): (r: string)
    requires TextOrFalsy(p, "cover_imgur") && TextOrFalsy(p, "cover")
    ensures StartsWith(r, ImgurPrefix)
  {
    ResolveCoverHosted(p, ImgurMap);
    ResolveCoverWith(p, ImgurMap)
  }

  // ---------------------------------------------------------------- minify

  /**
   * What `\s+<` matches at the start of `t`: one or more whitespace
   * characters and then `<`.
   */
  predicate SpacesThenOpen(t: string)
    decreases |t|
  {
    |t| >= 2 && IsSpace(t[0]) && (t[1] == '<' || SpacesThenOpen(t[1..]))
  }

  /** A `>`, whitespace and a `<` start `s`: a match of `>\s+<`. */
  predicate GapAtStart(s: string) {
    s != [] && s[0] == '>' && SpacesThenOpen(s[1..])
  }

  /** No `>` in `s` is followed by whitespace and then `<`. */
  predicate TagGapFree(s: string)
    decreases |s|
  {
    s == [] || (!GapAtStart(s) && TagGapFree(s[1..]))
  }

  /** No two whitespace characters stand next to each other in `s`. */
  predicate NoSpacePair(s: string)
    decreases |s|
  {
    |s| < 2 || (!(IsSpace(s[0]) && IsSpace(s[1])) && NoSpacePair(s[1..]))
  }

  /** What follows a match of `\s+<` at the start of `t`. */
  function AfterGap(t: string): (r: string)
    requires SpacesThenOpen(t)
    ensures |r| <= |t| - 2
    ensures r != [] ==> r[|r| - 1] == t[|t| - 1]
    ensures r == [] ==> t[|t| - 1] == '<'
    decreases |t|
  {
    if t[1] == '<' then t[2..] else AfterGap(t[1..])
  }

  /**
   * `re.sub(r">\s+<", "><", s)`: scanning left to right, each `>` that is
   * followed by a run of whitespace and a `<` loses the run. The first and
   * last characters are kept.
   */
  function CollapseTagGaps(s: string): (r: string)
    ensures |r| <= |s|
    ensures s != [] ==> r != [] && r[0] == s[0] && r[|r| - 1] == s[|s| - 1]
    decreases |s|
  {
    if s == [] then []
    else if GapAtStart(s) then "><" + CollapseTagGaps(AfterGap(s[1..]))
    else [s[0]] + CollapseTagGaps(s[1..])
  }

  /**
   * `re.sub(r"\s{2,}", " ", s)`: each run of two or more whitespace
   * characters becomes one space; a lone whitespace character stays. A
   * string that neither starts nor ends with whitespace keeps its first and
   * last characters.
   */
  function SquashSpaces(s: string): (r: string)
    ensures |r| <= |s|
    ensures s != [] ==> r != []
    ensures s != [] && !IsSpace(s[0]) ==> r[0] == s[0]
    ensures s != [] && !IsSpace(s[|s| - 1]) ==> r[|r| - 1] == s[|s| - 1]
    decreases |s|
  {
    if s == [] then []
    else if |s| >= 2 && IsSpace(s[0]) && IsSpace(s[1]) then " " + SquashSpaces(s[LeadingSpaces(s)..])
    else [s[0]] + SquashSpaces(s[1..])
  }

  /**
   * `minify_html`: strip, drop whitespace between a `>` and the next `<`,
   * then squash whitespace runs. The result has no whitespace at either
   * end, no two whitespace characters in a row, and no `>` followed by
   * whitespace and `<`.
   */
  function MinifyHtml(s: string): (r: string)
    ensures Trimmed(r)
    ensures NoSpacePair(r)
    ensures TagGapFree(r)
  {
    var a := Strip(s);
    var b := CollapseTagGaps(a);
    CollapseTagGapsFree(a);
    SquashSpacesNoPair(b);
    SquashSpacesKeepsGapFree(b);
    SquashSpaces(b)
  }

  /** After the substitution no `>` is followed by whitespace and `<`. */
  lemma {:induction false} CollapseTagGapsFree(s: string)
    ensures TagGapFree(CollapseTagGaps(s))
    decreases |s|
  {
    if s == [] {
    } else if GapAtStart(s) {
      var c := CollapseTagGaps(AfterGap(s[1..]));
      CollapseTagGapsFree(AfterGap(s[1..]));
      assert CollapseTagGaps(s) == ['>'] + ("<" + c);
      TagGapFreeCons('<', c);
      TagGapFreeCons('>', "<" + c);
    } else {
      var c := CollapseTagGaps(s[1..]);
      CollapseTagGapsFree(s[1..]);
      assert CollapseTagGaps(s) == [s[0]] + c;
      if s[0] == '>' && SpacesThenOpen(c) {
        CollapseNoNewGap(s[1..]);
      }
      TagGapFreeCons(s[0], c);
    }
  }

  /** Putting `c` in front of a string without tag gaps makes none unless `c` is a `>` before `\s+<`. */
  lemma TagGapFreeCons(c: char, x: string)
    requires TagGapFree(x)
    requires c == '>' ==> !SpacesThenOpen(x)
    ensures TagGapFree([c] + x)
  {
    assert ([c] + x)[1..] == x;
  }

  /** The substitution does not create a whitespace run ending in `<` where there was none. */
  lemma {:induction false} CollapseNoNewGap(t: string)
    requires SpacesThenOpen(CollapseTagGaps(t))
    ensures SpacesThenOpen(t)
    decreases |t|
  {
    var c := CollapseTagGaps(t);
    assert !GapAtStart(t) by {
      assert t[0] == c[0];
    }
    assert c == [t[0]] + CollapseTagGaps(t[1..]);
    var c1 := CollapseTagGaps(t[1..]);
    assert c[1..] == c1;
    if c[1] == '<' {
      assert t[1] == '<';
    } else {
      CollapseNoNewGap(t[1..]);
    }
  }

  /** After squashing no two whitespace characters are adjacent. */
  lemma {:induction false} SquashSpacesNoPair(s: string)
    ensures NoSpacePair(SquashSpaces(s))
    decreases |s|
  {
    if s == [] {
    } else if |s| >= 2 && IsSpace(s[0]) && IsSpace(s[1]) {
      var u := s[LeadingSpaces(s)..];
      SquashSpacesNoPair(u);
      var r := SquashSpaces(s);
      assert r[1..] == SquashSpaces(u);
    } else {
      SquashSpacesNoPair(s[1..]);
      var r := SquashSpaces(s);
      assert r[1..] == SquashSpaces(s[1..]);
    }
  }

  /** Squashing whitespace does not create a `>` followed by whitespace and `<`. */
  lemma {:induction false} SquashSpacesKeepsGapFree(s: string)
    requires TagGapFree(s)
    ensures TagGapFree(SquashSpaces(s))
    decreases |s|
  {
    if s == [] {
    } else if |s| >= 2 && IsSpace(s[0]) && IsSpace(s[1]) {
      var n := LeadingSpaces(s);
      TagGapFreeSuffix(s, n);
      SquashSpacesKeepsGapFree(s[n..]);
      var r := SquashSpaces(s);
      assert r[1..] == SquashSpaces(s[n..]);
    } else {
      SquashSpacesKeepsGapFree(s[1..]);
      var r := SquashSpaces(s);
      assert r[1..] == SquashSpaces(s[1..]);
      if s[0] == '>' && SpacesThenOpen(r[1..]) {
        SquashNoNewGap(s[1..]);
      }
    }
  }

  /** Every suffix of a string without tag gaps has none. */
  lemma {:induction false} TagGapFreeSuffix(s: string, k: nat)
    requires TagGapFree(s) && k <= |s|
    ensures TagGapFree(s[k..])
    decreases k
  {
    if k > 0 {
      TagGapFreeSuffix(s[1..], k - 1);
      assert s[1..][k - 1..] == s[k..];
    }
  }

  /** Squashing does not create a whitespace run ending in `<` where there was none. */
  lemma {:induction false} SquashNoNewGap(t: string)
    requires SpacesThenOpen(SquashSpaces(t))
    ensures SpacesThenOpen(t)
  {
    var c := SquashSpaces(t);
    if |t| >= 2 && IsSpace(t[0]) && IsSpace(t[1]) {
      var n := LeadingSpaces(t);
      var u := t[n..];
      assert c == " " + SquashSpaces(u);
      assert c[1..] == SquashSpaces(u);
      assert u != [] && !IsSpace(u[0]);
      assert u[0] == '<';
      SpacesThenOpenRun(t, n);
    } else {
      assert c == [t[0]] + SquashSpaces(t[1..]);
      assert c[1..] == SquashSpaces(t[1..]);
      assert t[1] == '<';
    }
  }

  /** Whitespace up to position `k` and a `<` at `k` make a match of `\s+<`. */
  lemma {:induction false} SpacesThenOpenRun(t: string, k: nat)
    requires 0 < k < |t| && t[k] == '<'
    requires forall i :: 0 <= i < k ==> IsSpace(t[i])
    ensures SpacesThenOpen(t)
    decreases k
  {
    if k > 1 {
      SpacesThenOpenRun(t[1..], k - 1);
    }
  }

  /** A string without tag gaps is left alone by the first substitution. */
  lemma {:induction false} CollapseTagGapsNoGap(s: string)
    requires TagGapFree(s)
    ensures CollapseTagGaps(s) == s
    decreases |s|
  {
    if s != [] {
      CollapseTagGapsNoGap(s[1..]);
    }
  }

  /** A string without adjacent whitespace is left alone by the second substitution. */
  lemma {:induction false} SquashSpacesNoPairId(s: string)
    requires NoSpacePair(s)
    ensures SquashSpaces(s) == s
    decreases |s|
  {
    if s != [] {
      SquashSpacesNoPairId(s[1..]);
    }
  }

  /** A gap `\s+<` holds no visible character but its `<`. */
  lemma {:induction false} AfterGapVisible(t: string)
    requires SpacesThenOpen(t)
    ensures Visible(t) == "<" + Visible(AfterGap(t))
    decreases |t|
  {
    VisibleCons(t[0], t[1..]);
    assert t == [t[0]] + t[1..];
    if t[1] == '<' {
      VisibleCons(t[1], t[2..]);
      assert t[1..] == [t[1]] + t[2..];
    } else {
      AfterGapVisible(t[1..]);
    }
  }

  /** Dropping the whitespace between tags keeps every other character, in order. */
  lemma {:induction false} CollapseTagGapsVisible(s: string)
    ensures Visible(CollapseTagGaps(s)) == Visible(s)
    decreases |s|
  {
    if s == [] {
    } else if GapAtStart(s) {
      CollapseTagGapsVisible(AfterGap(s[1..]));
      CollapseGapVisible(s);
    } else {
      CollapseTagGapsVisible(s[1..]);
      VisibleCons(s[0], CollapseTagGaps(s[1..]));
      VisibleCons(s[0], s[1..]);
      assert s == [s[0]] + s[1..];
    }
  }

  /** One step of CollapseTagGapsVisible: a gap at the start becomes `><`, which holds the same visible characters. */
  lemma CollapseGapVisible(s: string)
    requires GapAtStart(s)
    requires Visible(CollapseTagGaps(AfterGap(s[1..]))) == Visible(AfterGap(s[1..]))
    ensures Visible(CollapseTagGaps(s)) == Visible(s)
  {
    var t := s[1..];
    CollapseGapShape(s);
    AfterGapVisible(t);
    VisibleTagPair(t, AfterGap(t), CollapseTagGaps(AfterGap(t)));
  }

  /** At a gap the substitution writes `><` and goes on after the `<`. */
  lemma CollapseGapShape(s: string)
    requires GapAtStart(s)
    ensures s == ['>'] + s[1..]
    ensures CollapseTagGaps(s) == ['>'] + (['<'] + CollapseTagGaps(AfterGap(s[1..])))
  {
  }

  /** Squashing whitespace runs keeps every other character, in order. */
  lemma {:induction false} SquashSpacesVisible(s: string)
    ensures Visible(SquashSpaces(s)) == Visible(s)
    decreases |s|
  {
    if s == [] {
    } else if |s| >= 2 && IsSpace(s[0]) && IsSpace(s[1]) {
      var n := LeadingSpaces(s);
      SquashSpacesVisible(s[n..]);
      VisibleCons(' ', SquashSpaces(s[n..]));
      SpaceEnds(s, n, 0);
      VisibleSkipSpaces(s, n);
    } else {
      SquashSpacesVisible(s[1..]);
      VisibleCons(s[0], SquashSpaces(s[1..]));
      VisibleCons(s[0], s[1..]);
      assert s == [s[0]] + s[1..];
    }
  }

  /** Minifying only removes or replaces whitespace: every other character is kept, in order. */
  lemma MinifyHtmlVisible(s: string)
    ensures Visible(MinifyHtml(s)) == Visible(s)
  {
    var a := Strip(s);
    StripVisible(s);
    CollapseTagGapsVisible(a);
    SquashSpacesVisible(CollapseTagGaps(a));
  }

  /** Minifying twice gives the same markup as minifying once. */
  lemma MinifyHtmlIdempotent(s: string)
    ensures MinifyHtml(MinifyHtml(s)) == MinifyHtml(s)
  {
    var m := MinifyHtml(s);
    assert Strip(m) == m;
    CollapseTagGapsNoGap(m);
    SquashSpacesNoPairId(m);
  }

  // ---------------------------------------------------------------- defaults

  /** The twelve `setdefault` calls of `get_projects`, in order: each key with the value it gets when missing. */
  function DefaultList(): seq<(string, Value)> {
    [
    ("title", Str("Proyecto sin t\U{ED}tulo")),
    ("slug", Str("")),
    ("year", Int(0)),
    ("week", Int(0)),
    ("modality", List([])),
    ("device", Str("")),
    ("type", Str("")),
    ("cover", Str("")),
    ("cover_imgur", Str("")),
    ("summary", Str("")),
    ("links", Dict(map[])),
    ("order", Int(0))]
  }

  /** The keys of a list of defaults. */
  function DefaultKeys(ds: seq<(string, Value)>): set<string> {
    set i | 0 <= i < |ds| :: ds[i].0
  }

  /** The value the first entry for `k` gives, `None` if there is none. */
  function DefaultFor(ds: seq<(string, Value)>, k: string): Option<Value> {
    if ds == [] then None else if ds[0].0 == k then Some(ds[0].1) else DefaultFor(ds[1..], k)
  }

  /** `p.setdefault(k, v)`: a missing key gets `v`; a present one is left alone. */
  function SetDefault(p: Record, k: string, v: Value): Record {
    if k in p then p else p[k := v]
  }

  /**
   * A run of `setdefault` calls. Afterwards every listed key is present; a
   * key that was present keeps its value, and a missing one holds the value
   * of its first entry in the list.
   */
  function SetDefaults(p: Record, ds: seq<(string, Value)>): (r: Record)
    ensures r.Keys == p.Keys + DefaultKeys(ds)
    ensures forall k :: k in p ==> r[k] == p[k]
    ensures forall k :: k in r && k !in p ==> DefaultFor(ds, k) == Some(r[k])
    decreases |ds|
  {
    if ds == [] then p
    else
      DefaultKeysCons(ds);
      SetDefaults(SetDefault(p, ds[0].0, ds[0].1), ds[1..])
  }

  lemma DefaultKeysCons(ds: seq<(string, Value)>)
    requires ds != []
    ensures DefaultKeys(ds) == {ds[0].0} + DefaultKeys(ds[1..])
  {
    forall k | k in DefaultKeys(ds) ensures k in {ds[0].0} + DefaultKeys(ds[1..]) {
      var i :| 0 <= i < |ds| && ds[i].0 == k;
      if i > 0 {
        assert ds[1..][i - 1].0 == k;
      }
    }
    forall k | k in DefaultKeys(ds[1..]) ensures k in DefaultKeys(ds) {
      var i :| 0 <= i < |ds| - 1 && ds[1..][i].0 == k;
      assert ds[i + 1].0 == k;
    }
  }

  /** `get_projects`' defaulting of one record. */
  function WithDefaults(p: Record): Record {
    SetDefaults(p, DefaultList())
  }

  /** Running the same `setdefault` calls a second time changes nothing. */
  lemma SetDefaultsIdempotent(p: Record, ds: seq<(string, Value)>)
    ensures SetDefaults(SetDefaults(p, ds), ds) == SetDefaults(p, ds)
  {
    var r := SetDefaults(p, ds);
    var r2 := SetDefaults(r, ds);
    assert r2.Keys == r.Keys;
    SetDefaultsKeeps(r, ds);
    assert r2 == r;
  }

  /** Defaulting a second time changes nothing. */
  lemma WithDefaultsIdempotent(p: Record)
    ensures WithDefaults(WithDefaults(p)) == WithDefaults(p)
  {
    SetDefaultsIdempotent(p, DefaultList());
  }

  /** Defaulting never overwrites the normalised slug, tags or year. */
  lemma WithDefaultsKeepsNormalized(p: Record)
    requires Loadable(p)
    ensures forall k :: k in NormalizedKeys ==>
      k in Normalize(p) && k in WithDefaults(Normalize(p)) && WithDefaults(Normalize(p))[k] == Normalize(p)[k]
  {
    var n := Normalize(p);
    NormalizeWritesOnly(p);
    assert "slug" in n && "tags" in n && "year" in n;
    SetDefaultsKeeps(n, DefaultList());
  }

  /** `setdefault` never overwrites a key that is present. */
  lemma SetDefaultsKeeps(p: Record, ds: seq<(string, Value)>)
    ensures forall k :: k in p ==> k in SetDefaults(p, ds) && SetDefaults(p, ds)[k] == p[k]
  {
  }

  /** The loop of `get_projects`: every record gets the same run of `setdefault` calls, in place. */
  method ApplyDefaults(projects: array<Record>, ds: seq<(string, Value)>)
    modifies projects
    ensures forall i :: 0 <= i < projects.Length ==> projects[i] == SetDefaults(old(projects[i]), ds)
  {
    MapInPlace(projects, p => SetDefaults(p, ds));
  }

  /**
   * `get_projects`: load and normalise the records, then fill in the
   * defaults of each in place.
   */
  method GetProjects(projects: array<Record>)
    requires forall i :: 0 <= i < projects.Length ==> Loadable(projects[i])
    modifies projects
    ensures forall i :: 0 <= i < projects.Length ==> projects[i] == WithDefaults(Normalize(old(projects[i])))
  {
    LoadProjects(projects);
    ApplyDefaults(projects, DefaultList());
  }

  /** A record that lacks `title` gets the placeholder title of `get_projects`. */
  lemma WithDefaultsTitle(p: Record)
    requires "title" !in p
    ensures WithDefaults(p)["title"] == Str("Proyecto sin t\U{ED}tulo")
  {
    var ds := DefaultList();
    assert ds[0].0 == "title";
    assert "title" in DefaultKeys(ds);
  }

  // ---------------------------------------------------------------- match

  /** The fields `match` reads are absent or of the type its `join` and `str` accept. */
  predicate Matchable(p: Record) {
    && TextOrAbsent(p, "title") && TextOrAbsent(p, "summary") && TextOrAbsent(p, "device")
    && TextOrAbsent(p, "type") && TextOrAbsent(p, "slug") && TextListOrAbsent(p, "modality")
    && Scalar(GetOr(p, "week", Str(""))) && Scalar(GetOr(p, "year", Str("")))
  }

  /**
   * The text the home page searches: title, summary, modalities, device,
   * `str(week)`, `str(year)`, type and slug joined by single spaces, lower-cased.
   */
  function MatchHaystack(p: Record): string {
    Lower(Join(" ", [
      TextField(p, "title"), TextField(p, "summary"), JoinedField(p, "modality"),
      TextField(p, "device"), PyStr(GetOr(p, "week", Str(""))), PyStr(GetOr(p, "year", Str(""))),
      TextField(p, "type"), TextField(p, "slug")]))
  }

  /** `sel_mod in p.get("modality", [])`. */
  predicate HasModality(p: Record, m: string) {
    "modality" in p && p["modality"].List? && Str(m) in p["modality"].items
  }

  /**
   * `match(p)` with the page's query `q` (already stripped and lower-cased
   * by the page) and the two select boxes; "(Todas)" and "(Todos)" switch
   * their facet off.
   */
  predicate Match(p: Record, q: string, selMod: string, selYear: string) {
    && (q == "" || AllIn(Split(q), MatchHaystack(p)))
    && (selMod == "(Todas)" || HasModality(p, selMod))
    && (selYear == "(Todos)" || PyStr(GetOr(p, "year", Int(0))) == selYear)
  }

  /** With both sentinels selected, the query alone decides. */
  lemma MatchSentinels(p: Record, q: string)
    ensures Match(p, q, "(Todas)", "(Todos)") <==> (q == "" || AllIn(Split(q), MatchHaystack(p)))
  {
  }

  /** With both sentinels selected, a one-word query matches exactly when the haystack holds it. */
  lemma MatchWord(p: Record, w: string)
    requires IsWord(w)
    ensures Match(p, w, "(Todas)", "(Todos)") <==> Contains(MatchHaystack(p), w)
  {
    SplitWord(w);
  }

  /**
   * With both sentinels selected, a record whose lower-cased title holds
   * every token of the query matches.
   */
  lemma MatchByTitle(p: Record, q: string)
    requires AllIn(Split(q), Lower(TextField(p, "title")))
    ensures Match(p, q, "(Todas)", "(Todos)")
  {
    AllInJoinHead(Split(q), [
      TextField(p, "title"), TextField(p, "summary"), JoinedField(p, "modality"),
      TextField(p, "device"), PyStr(GetOr(p, "week", Str(""))), PyStr(GetOr(p, "year", Str(""))),
      TextField(p, "type"), TextField(p, "slug")]);
  }

  /** A query of two parts joined by a space matches exactly when both parts do. */
  lemma MatchNarrows(p: Record, q1: string, q2: string, selMod: string, selYear: string)
    ensures Match(p, q1 + " " + q2, selMod, selYear) <==> Match(p, q1, selMod, selYear) && Match(p, q2, selMod, selYear)
  {
    SplitAppend(q1, q2);
    if q1 == "" {
      assert Split(q1) == [];
    }
    if q2 == "" {
      assert Split(q2) == [];
    }
  }

  /**
   * The year facet of a record with an int year keeps it exactly when the
   * selected year is that year's decimal text.
   */
  lemma MatchYearFacet(p: Record, y: int, n: int)
    requires "year" in p && p["year"] == Int(y)
    ensures Match(p, "", "(Todas)", IntToString(n)) <==> n == y
  {
    assert PyStr(GetOr(p, "year", Int(0))) == IntToString(y);
    if n < 0 {
      assert IntToString(n)[0] == '-';
    } else {
      assert IsDigit(Digits(n)[0]);
    }
    assert IntToString(n) != "(Todos)";
    IntToStringInjective(n, y);
  }

  /** The modality facet drops a record with no modality list whenever a modality is chosen. */
  lemma MatchModalityFacet(p: Record, q: string, m: string, selYear: string)
    requires m != "(Todas)"
    requires "modality" !in p || p["modality"] == List([])
    ensures !Match(p, q, m, selYear)
  {
  }

  /** `[p for p in projects if match(p)]`. */
  function Filtered(projects: seq<Record>, q: string, selMod: string, selYear: string): (r: seq<Record>)
    requires forall p :: p in projects ==> Matchable(p)
    ensures Subseq(r, projects)
    ensures forall p :: multiset(r)[p] == if Match(p, q, selMod, selYear) then multiset(projects)[p] else 0
  {
    FilterSubseq(projects, p => Match(p, q, selMod, selYear));
    FilterMultiset(projects, p => Match(p, q, selMod, selYear));
    Filter(projects, p => Match(p, q, selMod, selYear))
  }

  /** With both sentinels and no query, the home page lists every record. */
  lemma FilteredAll(projects: seq<Record>)
    requires forall p :: p in projects ==> Matchable(p)
    ensures Filtered(projects, "", "(Todas)", "(Todos)") == projects
  {
    FilterKeepsAll(projects, p => Match(p, "", "(Todas)", "(Todos)"));
  }

  // ---------------------------------------------------------------- sort

  /** The int a sort-key field compares as: an int itself, a bool as 0 or 1. */
  function KeyPart(v: Value): int {
    match v
    case Int(i) => i
    case Bool(b) => if b then 1 else 0
    case _ => 0
  }

  predicate IntLike(v: Value) {
    v.Int? || v.Bool?
  }

  /** The sort key's fields are absent or ints, so Python can compare any two keys. */
  predicate SortKeyed(p: Record) {
    IntLike(GetOr(p, "year", Int(0))) && IntLike(GetOr(p, "week", Int(0))) && IntLike(GetOr(p, "order", Int(0)))
  }

  /** `(p.get("year",0), p.get("week",0), p.get("order",0))`. */
  function Key(p: Record): (int, int, int) {
    (KeyPart(GetOr(p, "year", Int(0))), KeyPart(GetOr(p, "week", Int(0))), KeyPart(GetOr(p, "order", Int(0))))
  }

  /** Tuple comparison `a >= b`: lexicographic. */
  predicate KeyGe(a: (int, int, int), b: (int, int, int)) {
    a.0 > b.0 || (a.0 == b.0 && (a.1 > b.1 || (a.1 == b.1 && a.2 >= b.2)))
  }

  lemma KeyGeTotal(a: (int, int, int), b: (int, int, int))
    ensures KeyGe(a, b) || KeyGe(b, a)
    ensures KeyGe(a, b) && KeyGe(b, a) ==> a == b
  {
  }

  /** Newest first: every record's key is at least that of each record after it. */
  predicate SortedDesc(s: seq<Record>) {
    forall i, j :: 0 <= i < j < |s| ==> KeyGe(Key(s[i]), Key(s[j]))
  }

  /**
   * Places `x` in front of the first record whose key is at most its own, so
   * that it comes before every record with an equal key.
   */
  function Insert(x: Record, s: seq<Record>): (r: seq<Record>)
    ensures |r| == |s| + 1
  {
    if s == [] then [x]
    else if KeyGe(Key(x), Key(s[0])) then [x] + s
    else [s[0]] + Insert(x, s[1..])
  }

  /**
   * `sort(key=..., reverse=True)`: a stable sort, newest first. Records with
   * equal keys keep their order (SortDescSorted, SortDescPermutation,
   * SortDescStable).
   */
  function SortDesc(s: seq<Record>): (r: seq<Record>)
    ensures |r| == |s|
  {
    if s == [] then [] else Insert(s[0], SortDesc(s[1..]))
  }

  lemma {:induction false} InsertMultiset(x: Record, s: seq<Record>)
    ensures multiset(Insert(x, s)) == multiset{x} + multiset(s)
  {
    if s != [] && !KeyGe(Key(x), Key(s[0])) {
      InsertMultiset(x, s[1..]);
      assert s == [s[0]] + s[1..];
    }
  }

  /** The sort permutes its input. */
  lemma {:induction false} SortDescPermutation(s: seq<Record>)
    ensures multiset(SortDesc(s)) == multiset(s)
  {
    if s != [] {
      SortDescPermutation(s[1..]);
      InsertMultiset(s[0], SortDesc(s[1..]));
      assert s == [s[0]] + s[1..];
    }
  }

  lemma {:induction false} InsertSorted(x: Record, s: seq<Record>)
    requires SortedDesc(s)
    ensures SortedDesc(Insert(x, s))
  {
    if s == [] {
    } else if KeyGe(Key(x), Key(s[0])) {
      ConsSorted(x, s);
    } else {
      InsertSorted(x, s[1..]);
      var t := Insert(x, s[1..]);
      InsertMultiset(x, s[1..]);
      forall k | 0 <= k < |t|
        ensures KeyGe(Key(s[0]), Key(t[k]))
      {
        assert t[k] in multiset(t);
      }
      ConsSorted(s[0], t);
    }
  }

  /** A record in front of a sorted list whose head it is at least keeps it sorted. */
  lemma ConsSorted(x: Record, s: seq<Record>)
    requires SortedDesc(s)
    requires forall k :: 0 <= k < |s| ==> KeyGe(Key(x), Key(s[k]))
    ensures SortedDesc([x] + s)
  {
    forall i, j | 0 <= i < j < |s| + 1
      ensures KeyGe(Key(([x] + s)[i]), Key(([x] + s)[j]))
    {
      if i > 0 {
        assert ([x] + s)[i] == s[i - 1];
      }
      assert ([x] + s)[j] == s[j - 1];
    }
  }

  /** The sort orders its output newest first. */
  lemma {:induction false} SortDescSorted(s: seq<Record>)
    ensures SortedDesc(SortDesc(s))
  {
    if s != [] {
      SortDescSorted(s[1..]);
      InsertSorted(s[0], SortDesc(s[1..]));
    }
  }

  /** The records of `s` whose key is `k`, in order. */
  function SameKey(s: seq<Record>, k: (int, int, int)): seq<Record> {
    Filter(s, p => Key(p) == k)
  }

  lemma {:induction false} InsertSameKey(x: Record, s: seq<Record>, k: (int, int, int))
    ensures SameKey(Insert(x, s), k) == if Key(x) == k then [x] + SameKey(s, k) else SameKey(s, k)
  {
    var same := p => Key(p) == k;
    if s == [] {
    } else if KeyGe(Key(x), Key(s[0])) {
      FilterAppend([x], s, same);
    } else {
      InsertSameKey(x, s[1..], k);
      FilterAppend([s[0]], Insert(x, s[1..]), same);
      FilterAppend([s[0]], s[1..], same);
      assert s == [s[0]] + s[1..];
    }
  }

  /**
   * The sort is stable: the records that share any one key appear in the
   * output in the order they had in the input.
   */
  lemma {:induction false} SortDescStable(s: seq<Record>, k: (int, int, int))
    ensures SameKey(SortDesc(s), k) == SameKey(s, k)
  {
    var same := p => Key(p) == k;
    if s != [] {
      SortDescStable(s[1..], k);
      InsertSameKey(s[0], SortDesc(s[1..]), k);
      FilterAppend([s[0]], s[1..], same);
      assert s == [s[0]] + s[1..];
    }
  }

  /** `filtered.sort(key=..., reverse=True)`: the list is reordered in place. */
  method SortByRecency(a: array<Record>)
    requires forall i :: 0 <= i < a.Length ==> SortKeyed(a[i])
    modifies a
    ensures a[..] == SortDesc(old(a[..]))
  {
    var r := SortDesc(a[..]);
    forall i | 0 <= i < a.Length {
      a[i] := r[i];
    }
  }

  /** The home page's list: the matching records, newest first. */
  function Listing(projects: seq<Record>, q: string, selMod: string, selYear: string): (r: seq<Record>)
    requires forall p :: p in projects ==> Matchable(p)
    requires forall p :: p in projects ==> SortKeyed(p)
  {
    SortDesc(Filtered(projects, q, selMod, selYear))
  }

  /**
   * The listing holds each matching record as often as the input does and
   * nothing else, newest first, equal keys in input order.
   */
  lemma ListingSpec(projects: seq<Record>, q: string, selMod: string, selYear: string)
    requires forall p :: p in projects ==> Matchable(p)
    requires forall p :: p in projects ==> SortKeyed(p)
    ensures var r := Listing(projects, q, selMod, selYear);
      && (forall p :: multiset(r)[p] == if Match(p, q, selMod, selYear) then multiset(projects)[p] else 0)
      && SortedDesc(r)
      && (forall k :: SameKey(r, k) == SameKey(Filtered(projects, q, selMod, selYear), k))
  {
    var f := Filtered(projects, q, selMod, selYear);
    SortDescPermutation(f);
    SortDescSorted(f);
    forall k
      ensures SameKey(SortDesc(f), k) == SameKey(f, k)
    {
      SortDescStable(f, k);
    }
  }

  // ---------------------------------------------------------------- card buttons

  /** The four links a card can offer, in the order the card lists them. */
  datatype LinkKind = Demo | Repo | Video | Report

  /**
   * A button of a card: one per link, pointing at the link's value, or the
   * placeholder shown when there is no link at all.
   */
  datatype Button = LinkButton(kind: LinkKind, target: Value) | NoLinks

  /** The key of the link in the record's `links` dict. */
  function LinkKey(k: LinkKind): string {
    match k
    case Demo => "demo"
    case Repo => "repo"
    case Video => "video"
    case Report => "report"
  }

  /** The text of the button. */
  function Label(b: Button): string {
    match b
    case LinkButton(Demo, _) => "Demo"
    case LinkButton(Repo, _) => "Repo"
    case LinkButton(Video, _) => "Video"
    case LinkButton(Report, _) => "Reporte"
    case NoLinks => "Sin enlaces"
  }

  /** The position of a link kind among the card's buttons. */
  function Rank(k: LinkKind): nat {
    match k
    case Demo => 0
    case Repo => 1
    case Video => 2
    case Report => 3
  }

  /** `p.get("links", {})` is a dict, so `links.get(...)` succeeds. */
  predicate HasLinkDict(p: Record) {
    "links" !in p || p["links"].Dict?
  }

  /** `links.get(key)` of the card. */
  function LinkOf(p: Record, k: LinkKind): Value {
    if "links" in p && p["links"].Dict? then Get(p["links"].entries, LinkKey(k)) else Null
  }

  /** The record has at least one truthy link. */
  predicate AnyLink(p: Record) {
    Truthy(LinkOf(p, Demo)) || Truthy(LinkOf(p, Repo)) || Truthy(LinkOf(p, Video)) || Truthy(LinkOf(p, Report))
  }

  /** `if link: btns.append(...)` for one kind. */
  function ButtonIf(p: Record, k: LinkKind): (r: seq<Button>)
    ensures |r| <= 1
    ensures forall b :: b in r ==> b == LinkButton(k, LinkOf(p, k))
  {
    if Truthy(LinkOf(p, k)) then [LinkButton(k, LinkOf(p, k))] else []
  }

  /** The link buttons of a card, before the placeholder rule. */
  function LinkButtons(p: Record): (bs: seq<Button>)
    ensures bs == [] <==> !AnyLink(p)
    ensures forall b :: b in bs ==> b.LinkButton?
  {
    ButtonIf(p, Demo) + ButtonIf(p, Repo) + ButtonIf(p, Video) + ButtonIf(p, Report)
  }

  /**
   * The buttons of `card_html`: the link buttons, or the single "Sin
   * enlaces" placeholder exactly when there are none (CardButtonsLinks,
   * CardButtonsOrder).
   */
  function CardButtons(p: Record): (r: seq<Button>)
    requires HasLinkDict(p)
    ensures r != []
    ensures r == [NoLinks] <==> !AnyLink(p)
    ensures NoLinks in r ==> r == [NoLinks]
  {
    var bs := LinkButtons(p);
    if bs == [] then [NoLinks] else assert bs[0] in bs; bs
  }

  /**
   * A card shows a button for a link exactly when the link is truthy, and
   * every link button points at its own link.
   */
  lemma CardButtonsLinks(p: Record)
    requires HasLinkDict(p)
    ensures forall k :: LinkButton(k, LinkOf(p, k)) in CardButtons(p) <==> Truthy(LinkOf(p, k))
    ensures forall b :: b in CardButtons(p) && b.LinkButton? ==> b.target == LinkOf(p, b.kind)
  {
    var bs := LinkButtons(p);
    forall b | b in bs
      ensures b.LinkButton? && b.target == LinkOf(p, b.kind) && Truthy(b.target)
    {
    }
    forall k | Truthy(LinkOf(p, k))
      ensures LinkButton(k, LinkOf(p, k)) in bs
    {
      assert LinkButton(k, LinkOf(p, k)) in ButtonIf(p, k);
    }
  }

  /** Link buttons only, in strictly increasing rank. */
  predicate RankIncreasing(bs: seq<Button>) {
    && (forall b :: b in bs ==> b.LinkButton?)
    && forall i, j :: 0 <= i < j < |bs| ==> Rank(bs[i].kind) < Rank(bs[j].kind)
  }

  /** Joining two rank-increasing runs, the first of lower ranks, gives one. */
  lemma RankAppend(x: seq<Button>, y: seq<Button>, m: nat)
    requires RankIncreasing(x) && RankIncreasing(y)
    requires forall u :: u in x ==> Rank(u.kind) < m
    requires forall v :: v in y ==> Rank(v.kind) >= m
    ensures RankIncreasing(x + y)
  {
    forall i, j | 0 <= i < j < |x + y|
      ensures Rank((x + y)[i].kind) < Rank((x + y)[j].kind)
    {
      if j < |x| {
        assert (x + y)[i] == x[i] && (x + y)[j] == x[j];
      } else if i >= |x| {
        assert (x + y)[i] == y[i - |x|] && (x + y)[j] == y[j - |x|];
      } else {
        assert (x + y)[i] == x[i] && (x + y)[j] == y[j - |x|];
      }
    }
  }

  /** Buttons of the given kind only, at most one. */
  predicate AtMostOneOf(bs: seq<Button>, k: LinkKind) {
    |bs| <= 1 && forall b :: b in bs ==> b.LinkButton? && b.kind == k
  }

  lemma RankRuns(a: seq<Button>, b: seq<Button>, c: seq<Button>, d: seq<Button>)
    requires AtMostOneOf(a, Demo) && AtMostOneOf(b, Repo) && AtMostOneOf(c, Video) && AtMostOneOf(d, Report)
    ensures RankIncreasing(a + b + c + d)
  {
    RankAppend(a, b, 1);
    RankAppend(a + b, c, 2);
    RankAppend(a + b + c, d, 3);
  }

  lemma LinkButtonsOrder(p: Record)
    ensures RankIncreasing(LinkButtons(p))
  {
    RankRuns(ButtonIf(p, Demo), ButtonIf(p, Repo), ButtonIf(p, Video), ButtonIf(p, Report));
  }

  /** The link buttons come in the order Demo, Repo, Video, Reporte. */
  lemma CardButtonsOrder(p: Record)
    requires HasLinkDict(p)
    ensures var r := CardButtons(p);
      forall i, j :: 0 <= i < j < |r| && r[i].LinkButton? && r[j].LinkButton? ==> Rank(r[i].kind) < Rank(r[j].kind)
  {
    LinkButtonsOrder(p);
  }

  /** A card has at most four buttons, and exactly one per truthy link when it has any. */
  lemma CardButtonsCount(p: Record)
    requires HasLinkDict(p)
    ensures |CardButtons(p)| <= 4
    ensures AnyLink(p) ==> |CardButtons(p)| == |ButtonIf(p, Demo)| + |ButtonIf(p, Repo)| + |ButtonIf(p, Video)| + |ButtonIf(p, Report)|
  {
  }

  /**
   * The "Sin enlaces" text shows exactly when the record has no truthy
   * link, and no text appears on two buttons of a card.
   */
  lemma CardButtonLabels(p: Record)
    requires HasLinkDict(p)
    ensures (exists b :: b in CardButtons(p) && Label(b) == "Sin enlaces") <==> !AnyLink(p)
    ensures var r := CardButtons(p);
      forall i, j :: 0 <= i < j < |r| ==> Label(r[i]) != Label(r[j])
  {
    var r := CardButtons(p);
    if AnyLink(p) {
      LinkButtonsOrder(p);
      RankedLabels(r);
    } else {
      assert r[0] in r;
    }
  }

  /** Link buttons in increasing rank carry distinct labels, none of them "Sin enlaces". */
  lemma RankedLabels(r: seq<Button>)
    requires RankIncreasing(r)
    ensures forall b :: b in r ==> Label(b) != "Sin enlaces"
    ensures forall i, j :: 0 <= i < j < |r| ==> Label(r[i]) != Label(r[j])
  {
    forall i, j | 0 <= i < j < |r|
      ensures Label(r[i]) != Label(r[j])
    {
      assert r[i] in r && r[j] in r;
    }
  }
}

=== FILE: data.dfy ===
/**
 * lib/data.py: the per-record normalisation done while loading the project
 * list, the slug generator, and the free-text search.
 */
module Data {
  import opened Options
  import opened Seqs
  import opened PyText
  import opened PyValues

  // ---------------------------------------------------------------- slugify

  /**
   * The characters the slug pattern names besides whitespace: a-z, 0-9,
   * á é í ó ú ñ ü (U+00E1 U+00E9 U+00ED U+00F3 U+00FA U+00F1 U+00FC) and the hyphen.
   */
  predicate SlugChar(c: char) {
    || 'a' <= c <= 'z'
    || '0' <= c <= '9'
    || c == '\U{E1}' || c == '\U{E9}' || c == '\U{ED}' || c == '\U{F3}' || c == '\U{FA}'
    || c == '\U{F1}' || c == '\U{FC}'
    || c == '-'
  }

  /** What the substitution with `[^a-z0-9áéíóúñü\-\s]` leaves in place. */
  predicate KeptBySlugPattern(c: char) {
    SlugChar(c) || IsSpace(c)
  }

  /** `text.replace(" ", "-")`: each plain space, one by one. */
  function SpacesToHyphens(s: string): (r: string)
    ensures |r| == |s|
  {
    seq(|s|, i requires 0 <= i < |s| => if s[i] == ' ' then '-' else s[i])
  }

  /**
   * `slugify`: lower-case, strip, delete every character outside the slug
   * alphabet and whitespace, then turn each plain space into a hyphen. The
   * result never holds a plain space; whitespace other than a space (a tab,
   * a newline) survives the deletion.
   */
  function Slugify(text: string): (r: string)
    ensures forall i :: 0 <= i < |r| ==> r[i] != ' ' && (SlugChar(r[i]) || IsSpace(r[i]))
    ensures |r| <= |text|
    ensures text == "" ==> r == ""
  {
    var kept := Filter(Strip(Lower(text)), KeptBySlugPattern);
    SpacesToHyphens(kept)
  }

  lemma LowerKeepsSlugText(s: string)
    requires forall i :: 0 <= i < |s| ==> SlugChar(s[i]) || s[i] == ' '
    ensures Lower(s) == s
  {
  }

  /**
   * Slugify does not collapse spaces: on text made of slug characters and
   * spaces, the slug is the stripped text with each space turned into its
   * own hyphen.
   */
  lemma SlugifyHyphenPerSpace(s: string)
    requires forall i :: 0 <= i < |s| ==> SlugChar(s[i]) || s[i] == ' '
    ensures Slugify(s) == SpacesToHyphens(Strip(s))
    ensures |Slugify(s)| == |Strip(s)|
  {
    LowerKeepsSlugText(s);
    var t := Strip(s);
    StripKeeps(s, KeptBySlugPattern);
    FilterKeepsAll(t, KeptBySlugPattern);
  }

  /** Text of slug characters and spaces with nothing to strip: each space becomes a hyphen. */
  lemma SlugifyTrimmedSlugText(s: string)
    requires forall i :: 0 <= i < |s| ==> SlugChar(s[i]) || s[i] == ' '
    requires Trimmed(s)
    ensures Slugify(s) == SpacesToHyphens(s)
  {
    SlugifyHyphenPerSpace(s);
  }

  /** Replacing spaces changes nothing in text without spaces. */
  lemma SpacesToHyphensNoSpace(s: string)
    requires forall i :: 0 <= i < |s| ==> s[i] != ' '
    ensures SpacesToHyphens(s) == s
  {
  }

  /** A string of slug characters alone is its own slug. */
  lemma SlugifyFixesCleanSlug(s: string)
    requires forall i :: 0 <= i < |s| ==> SlugChar(s[i])
    ensures Slugify(s) == s
  {
    assert Trimmed(s) by {
      if s != [] {
        assert SlugChar(s[0]) && SlugChar(s[|s| - 1]);
      }
    }
    SlugifyTrimmedSlugText(s);
    SpacesToHyphensNoSpace(s);
  }

  /** Slugifying a slug again changes nothing, provided the slug holds no whitespace. */
  lemma SlugifyIdempotentWithoutWhitespace(text: string)
    requires NoSpace(Slugify(text))
    ensures Slugify(Slugify(text)) == Slugify(text)
  {
    SlugifyFixesCleanSlug(Slugify(text));
  }

  /** Two interior spaces give two hyphens. */
  lemma SlugifyKeepsSpaceRuns()
    ensures Slugify("a  b") == "a--b"
  {
    var s := "a  b";
    assert Trimmed(s);
    SlugifyTrimmedSlugText(s);
    assert SpacesToHyphens(s) == "a--b";
  }

  /** Stripping comes before the deletion: deleted trailing punctuation leaves a hyphen behind. */
  lemma SlugifyTrailingHyphen()
    ensures Slugify("x !") == "x-"
  {
    var s := "x !";
    assert Lower(s) == s;
    assert Trimmed(s);
    assert Filter(s, KeptBySlugPattern) == "x " by {
      assert s[1..] == " !" && s[1..][1..] == "!" && s[1..][1..][1..] == [];
    }
    assert SpacesToHyphens("x ") == "x-";
  }

  /** A tab that the strip could not reach, because deleted punctuation stood before it, survives into the slug. */
  lemma SlugifyKeepsInnerTab()
    ensures Slugify("!\tx") == "\tx"
  {
    var s := "!\tx";
    assert Lower(s) == s;
    assert Trimmed(s);
    assert Filter(s, KeptBySlugPattern) == "\tx" by {
      assert s[1..] == "\tx" && s[1..][1..] == "x" && s[1..][1..][1..] == [];
    }
    assert SpacesToHyphens("\tx") == "\tx";
  }

  /** A leading tab is stripped. */
  lemma SlugifyStripsTab()
    ensures Slugify("\tx") == "x"
  {
    var t := "\tx";
    assert Lower(t) == t;
    assert LeadingSpaces(t) == 1 by {
      assert t[1..] == "x";
    }
    assert Strip(t) == "x";
    SlugifyFixesCleanSlug("x");
  }

  /** Slugify is not idempotent: slugifying the slug of "!\tx" again removes the tab. */
  lemma SlugifyNotIdempotent()
    ensures Slugify(Slugify("!\tx")) != Slugify("!\tx")
  {
    SlugifyKeepsInnerTab();
    SlugifyStripsTab();
    assert "x" != "\tx";
  }

  /** A capitalised title: lower-cased, its spaces turned into hyphens. */
  lemma SlugifyTitle()
    ensures Slugify("Gestos VR") == "gestos-vr"
  {
    var s := "gestos vr";
    assert Lower("Gestos VR") == s;
    SlugifyLowerText("Gestos VR", s, "gestos-vr");
  }

  lemma SlugifyLowerText(title: string, s: string, slug: string)
    requires Lower(title) == s && Trimmed(s)
    requires forall i :: 0 <= i < |s| ==> SlugChar(s[i]) || s[i] == ' '
    requires SpacesToHyphens(s) == slug
    ensures Slugify(title) == slug
  {
    StripKeeps(s, KeptBySlugPattern);
    FilterKeepsAll(s, KeptBySlugPattern);
  }

  // ---------------------------------------------------------------- normalisation

  /** The three keys the loading loop writes. */
  const NormalizedKeys: set<string> := {"slug", "tags", "year"}

  /** `p.get("tags") or []` can be iterated and its elements turned into str. */
  predicate TagsLoadable(v: Value) {
    !Truthy(v) || v.Str? || (v.List? && forall x :: x in v.items ==> Scalar(x))
  }

  /**
   * The loading loop does not raise on `p`: the text slugify receives is a
   * str, and the tags can be iterated. (`int()` failures are caught.)
   */
  predicate Loadable(p: Record) {
    && (if Truthy(Get(p, "slug")) then p["slug"].Str? else TextOrAbsent(p, "title"))
    && TagsLoadable(Get(p, "tags"))
  }

  /** `p.get("slug") or p.get("title", "")`: the text the slug is made from. */
  function SlugSource(p: Record): string
    requires Loadable(p)
  {
    if Truthy(Get(p, "slug")) then p["slug"].s else TextField(p, "title")
  }

  /**
   * `[str(t) for t in (p.get("tags") or [])]`. A str is iterated character
   * by character.
   */
  function NormalizeTags(v: Value): (r: seq<Value>)
    requires TagsLoadable(v)
    ensures forall i :: 0 <= i < |r| ==> r[i].Str?
  {
    if !Truthy(v) then []
    else match v
      case List(xs) => seq(|xs|, i requires 0 <= i < |xs| => Str(PyStr(xs[i])))
      case Str(s) => seq(|s|, i requires 0 <= i < |s| => Str([s[i]]))
  }

  /** `int(p.get("year") or 0)`, with 0 wherever `int()` raises. */
  function NormalizeYear(v: Value): int {
    if !Truthy(v) then 0
    else match PyInt(v)
      case Some(n) => n
      case None => 0
  }

  /** What the loop leaves in every record: a str slug, a list of str tags and an int year. */
  predicate Normalized(r: Record) {
    && "slug" in r && r["slug"].Str?
    && "tags" in r && IsTextList(r["tags"])
    && "year" in r && r["year"].Int?
  }

  /** One iteration of the loading loop (NormalizeWritesOnly, NormalizeTypes). */
  function Normalize(p: Record): Record
    requires Loadable(p)
  {
    p["slug" := Str(Slugify(SlugSource(p)))]
     ["tags" := List(NormalizeTags(Get(p, "tags")))]
     ["year" := Int(NormalizeYear(Get(p, "year")))]
  }

  /**
   * The loop writes the keys `slug`, `tags` and `year` and no other; every
   * other key keeps its value.
   */
  lemma NormalizeWritesOnly(p: Record)
    requires Loadable(p)
    ensures Normalize(p).Keys == p.Keys + NormalizedKeys
    ensures forall k :: k in p && k !in NormalizedKeys ==> Normalize(p)[k] == p[k]
  {
  }

  /** After the loop every record has a str slug, a list of str tags and an int year. */
  lemma NormalizeTypes(p: Record)
    requires Loadable(p)
    ensures Normalized(Normalize(p))
  {
  }

  /**
   * The slug is made from the explicit slug when that is non-empty, from
   * the title otherwise, and is empty when there is neither.
   */
  lemma NormalizeSlug(p: Record)
    requires Loadable(p)
    ensures Get(p, "slug").Str? && Get(p, "slug").s != "" ==> Normalize(p)["slug"] == Str(Slugify(p["slug"].s))
    ensures !Truthy(Get(p, "slug")) && "title" in p ==> Normalize(p)["slug"] == Str(Slugify(p["title"].s))
    ensures !Truthy(Get(p, "slug")) && "title" !in p ==> Normalize(p)["slug"] == Str("")
  {
  }

  /**
   * Absent or empty tags become the empty list; a list keeps its length
   * and order, each element turned into its str.
   */
  lemma NormalizeTagList(p: Record)
    requires Loadable(p)
    ensures !Truthy(Get(p, "tags")) ==> Normalize(p)["tags"] == List([])
    ensures Get(p, "tags").List? ==>
      var raw := p["tags"].items;
      var tags := Normalize(p)["tags"].items;
      |tags| == |raw| && forall i :: 0 <= i < |raw| ==> tags[i] == Str(PyStr(raw[i]))
  {
  }

  /**
   * The year never makes loading fail: a missing or false value and one
   * that `int()` rejects become 0, an int stays as it is, and a str holding
   * an integer becomes that integer, negative ones included.
   */
  lemma NormalizeYearCases(v: Value)
    ensures !Truthy(v) ==> NormalizeYear(v) == 0
    ensures v.Int? ==> NormalizeYear(v) == v.i
    ensures v.Str? && ParseInt(v.s).Some? ==> NormalizeYear(v) == ParseInt(v.s).value
    ensures PyInt(v).None? ==> NormalizeYear(v) == 0
  {
  }

  /** A year written back with `str()` loads as the same year. */
  lemma {:induction false} NormalizeYearOfString(n: int)
    ensures NormalizeYear(Str(IntToString(n))) == n
  {
    ParseIntOfIntToString(n);
  }

  /** Normalising a second time leaves tags and year alone. */
  lemma NormalizeStableTagsYear(p: Record)
    requires Loadable(p) && TextOrAbsent(p, "title")
    ensures Loadable(Normalize(p))
    ensures Normalize(Normalize(p))["tags"] == Normalize(p)["tags"]
    ensures Normalize(Normalize(p))["year"] == Normalize(p)["year"]
  {
    var r := Normalize(p);
    var tags := r["tags"];
    if Truthy(tags) {
      assert NormalizeTags(tags) == tags.items;
    }
  }

  /**
   * `load_projects` after the file is parsed: the loop normalises every
   * record in place. The list keeps its length and its order.
   */
  method LoadProjects(projects: array<Record>)
    requires forall i :: 0 <= i < projects.Length ==> Loadable(projects[i])
    modifies projects
    ensures forall i :: 0 <= i < projects.Length ==> projects[i] == Normalize(old(projects[i]))
  {
    MapInPlace(projects, Normalize);
  }

  // ---------------------------------------------------------------- search

  /** Every field `hit` reads is absent or of the type `join` accepts. */
  predicate Searchable(p: Record) {
    && TextOrAbsent(p, "title") && TextOrAbsent(p, "summary")
    && TextOrAbsent(p, "role") && TextOrAbsent(p, "course") && TextOrAbsent(p, "instructor")
    && TextOrAbsent(p, "deliverable") && TextOrAbsent(p, "device")
    && TextListOrAbsent(p, "tags") && TextListOrAbsent(p, "tools") && TextListOrAbsent(p, "modality")
    && TextListOrAbsent(p, "input_types") && TextListOrAbsent(p, "output_types")
  }

  /** The text `hit` searches: twelve fields joined by single spaces, lower-cased. */
  function Haystack(p: Record): string {
    Lower(Join(" ", [
      TextField(p, "title"), TextField(p, "summary"),
      JoinedField(p, "tags"), JoinedField(p, "tools"),
      TextField(p, "role"), TextField(p, "course"), TextField(p, "instructor"),
      TextField(p, "deliverable"),
      JoinedField(p, "modality"), JoinedField(p, "input_types"), JoinedField(p, "output_types"),
      TextField(p, "device")]))
  }

  /** The tokens of the query: `q.lower().split()`. */
  function Tokens(q: string): seq<string> {
    Split(Lower(q))
  }

  /** `hit(p)`: every query token is a substring of the haystack. */
  predicate Hit(p: Record, q: string) {
    AllIn(Tokens(q), Haystack(p))
  }

  /** A one-word query is a hit exactly when the haystack holds the lower-cased word. */
  lemma HitWord(p: Record, w: string)
    requires IsWord(Lower(w))
    ensures Hit(p, w) <==> Contains(Haystack(p), Lower(w))
  {
    SplitWord(Lower(w));
  }

  /** A record whose lower-cased title holds every query token is a hit. */
  lemma HitByTitle(p: Record, q: string)
    requires AllIn(Tokens(q), Lower(TextField(p, "title")))
    ensures Hit(p, q)
  {
    AllInJoinHead(Tokens(q), [
      TextField(p, "title"), TextField(p, "summary"),
      JoinedField(p, "tags"), JoinedField(p, "tools"),
      TextField(p, "role"), TextField(p, "course"), TextField(p, "instructor"),
      TextField(p, "deliverable"),
      JoinedField(p, "modality"), JoinedField(p, "input_types"), JoinedField(p, "output_types"),
      TextField(p, "device")]);
  }

  /**
   * `search`: an empty query returns the list itself; otherwise the records
   * whose haystack contains every token, in their original order.
   */
  function Search(projects: seq<Record>, q: string): (r: seq<Record>)
    requires q != "" ==> forall p :: p in projects ==> Searchable(p)
    ensures q == "" ==> r == projects
    ensures Subseq(r, projects)
    ensures forall p :: multiset(r)[p] == if Hit(p, q) then multiset(projects)[p] else 0
  {
    if q == "" then SubseqRefl(projects); projects
    else
      FilterSubseq(projects, p => Hit(p, q));
      FilterMultiset(projects, p => Hit(p, q));
      Filter(projects, p => Hit(p, q))
  }

  /** A query of whitespace alone has no tokens, so every record is kept. */
  lemma SearchBlankQuery(projects: seq<Record>, q: string)
    requires AllSpace(q)
    requires q != "" ==> forall p :: p in projects ==> Searchable(p)
    ensures Search(projects, q) == projects
  {
    SplitAllSpace(Lower(q));
    if q != "" {
      FilterKeepsAll(projects, p => Hit(p, q));
    }
  }

  /** The tokens of two queries joined by a space are those of both. */
  lemma TokensAppend(q1: string, q2: string)
    ensures Tokens(q1 + " " + q2) == Tokens(q1) + Tokens(q2)
  {
    LowerAppend(q1 + " ", q2);
    LowerAppend(q1, " ");
    assert Lower(" ") == " ";
    SplitAppend(Lower(q1), Lower(q2));
  }

  /**
   * Adding tokens narrows the search: searching for `q1 q2` keeps exactly
   * those results of `q1` that also match `q2`, in the same order.
   */
  lemma SearchNarrows(projects: seq<Record>, q1: string, q2: string)
    requires forall p :: p in projects ==> Searchable(p)
    ensures Search(projects, q1 + " " + q2) == Filter(Search(projects, q1), p => Hit(p, q2))
    ensures Subseq(Search(projects, q1 + " " + q2), Search(projects, q1))
  {
    var both := p => Hit(p, q1 + " " + q2);
    forall p | p in projects
      ensures both(p) == (Hit(p, q1) && Hit(p, q2))
    {
      HitAppend(p, q1, q2);
    }
    if q1 == "" {
      SplitAllSpace(Lower(q1));
      FilterExt(projects, both, p => Hit(p, q2));
    } else {
      FilterFilter(projects, p => Hit(p, q1), p => Hit(p, q2), both);
    }
    FilterSubseq(Search(projects, q1), p => Hit(p, q2));
  }

  /** A record matches `q1 q2` exactly when it matches both queries. */
  lemma HitAppend(p: Record, q1: string, q2: string)
    ensures Hit(p, q1 + " " + q2) == (Hit(p, q1) && Hit(p, q2))
  {
    TokensAppend(q1, q2);
  }
}

=== FILE: proyectos.dfy ===
/**
 * Proyectos.py: the gallery page. Its sidebar offers facet pools built from
 * the records; `apply_filters` narrows the records by the chosen facets and
 * the free-text search, and a `slug` in the page's query picks one record.
 */
module Proyectos {
  import opened Options
  import opened Seqs
  import opened PyText
  import opened PyValues
  import opened Data

  // ---------------------------------------------------------------- facets

  /**
   * What the sidebar holds: the chosen modalities, devices, weeks and
   * deliverable types (each empty when nothing is chosen) and the query.
   */
  datatype Selection = Selection(mods: seq<string>, devs: seq<string>, weeks: seq<Value>, types: seq<string>, q: string)

  /** `p.get("modality", [])` for a record whose modality is absent or a list. */
  function Modalities(p: Record): seq<Value> {
    if "modality" in p && p["modality"].List? then p["modality"].items else []
  }

  /** `any(m in p.get("modality", []) for m in sel_mod)`. */
  predicate ModalityHit(p: Record, mods: seq<string>) {
    exists m :: m in mods && Str(m) in Modalities(p)
  }

  /** `p.get("device") in sel_dev`: the device is a str among the chosen ones. */
  predicate DeviceHit(p: Record, devs: seq<string>) {
    Get(p, "device").Str? && Get(p, "device").s in devs
  }

  /** `[str(w) for w in sel_weeks]`. */
  function WeekTexts(weeks: seq<Value>): (r: seq<string>)
    ensures |r| == |weeks|
  {
    seq(|weeks|, i requires 0 <= i < |weeks| => PyStr(weeks[i]))
  }

  /** `str(p.get("week")) in [str(w) for w in sel_weeks]`: weeks compare as text. */
  predicate WeekHit(p: Record, weeks: seq<Value>) {
    PyStr(Get(p, "week")) in WeekTexts(weeks)
  }

  /** `p.get("deliverable") in sel_types`. */
  predicate TypeHit(p: Record, types: seq<string>) {
    Get(p, "deliverable").Str? && Get(p, "deliverable").s in types
  }

  /** The modality and device facets, when active, keep the record. */
  predicate PassesModDev(p: Record, sel: Selection) {
    && (sel.mods == [] || ModalityHit(p, sel.mods))
    && (sel.devs == [] || DeviceHit(p, sel.devs))
  }

  /** Every active facet keeps the record. */
  predicate PassesFacets(p: Record, sel: Selection) {
    && PassesModDev(p, sel)
    && (sel.weeks == [] || WeekHit(p, sel.weeks))
    && (sel.types == [] || TypeHit(p, sel.types))
  }

  /**
   * The records `apply_filters` can work on: each step reads the fields of
   * the records the earlier steps kept, and those fields are of the type
   * Python's `in`, `str` and `join` accept there.
   */
  predicate Filterable(p: Record, sel: Selection) {
    && (sel.mods != [] ==> "modality" !in p || p["modality"].List?)
    && (sel.weeks != [] && PassesModDev(p, sel) ==> Scalar(Get(p, "week")) && forall w :: w in sel.weeks ==> Scalar(w))
    && (sel.q != "" && PassesFacets(p, sel) ==> Searchable(p))
  }

  /** Every active facet keeps the record, and so does the search when there is a query. */
  predicate Selected(p: Record, sel: Selection) {
    PassesFacets(p, sel) && (sel.q == "" || Hit(p, sel.q))
  }

  /** `if active: out = [p for p in out if keep(p)]`: one optional narrowing step. */
  function Narrow(s: seq<Record>, active: bool, keep: Record -> bool): (r: seq<Record>)
    ensures forall p :: p in r ==> p in s && (active ==> keep(p))
  {
    if active then FilterMembers(s, keep); Filter(s, keep) else s
  }

  /**
   * `apply_filters`: each active facet in turn narrows the list, then the
   * search does (ApplyFiltersSelected, ApplyFiltersSubseq).
   */
  function ApplyFilters(items: seq<Record>, sel: Selection): seq<Record>
    requires forall p :: p in items ==> Filterable(p, sel)
  {
    var out1 := Narrow(items, sel.mods != [], p => ModalityHit(p, sel.mods));
    var out2 := Narrow(out1, sel.devs != [], p => DeviceHit(p, sel.devs));
    var out3 := Narrow(out2, sel.weeks != [], p => WeekHit(p, sel.weeks));
    var out4 := Narrow(out3, sel.types != [], p => TypeHit(p, sel.types));
    if sel.q != "" then
      assert forall p :: p in out4 ==> p in items && Filterable(p, sel) && PassesFacets(p, sel);
      Search(out4, sel.q)
    else out4
  }

  /**
   * One link of the chain: filtering by `prev` and then, when the facet is
   * active, by `f` is filtering once by `next`.
   */
  lemma Stage(items: seq<Record>, prev: Record -> bool, f: Record -> bool, active: bool, next: Record -> bool)
    requires forall x :: next(x) == (prev(x) && (!active || f(x)))
    ensures Narrow(Filter(items, prev), active, f) == Filter(items, next)
  {
    if active {
      FilterFilter(items, prev, f, next);
    } else {
      FilterExt(items, prev, next);
    }
  }

  /** The chain of filters keeps exactly the records every active facet and the search select, in order. */
  lemma ApplyFiltersSelected(items: seq<Record>, sel: Selection)
    requires forall p :: p in items ==> Filterable(p, sel)
    ensures ApplyFilters(items, sel) == Filter(items, p => Selected(p, sel))
  {
    var m := p => sel.mods == [] || ModalityHit(p, sel.mods);
    var md := p => m(p) && (sel.devs == [] || DeviceHit(p, sel.devs));
    var mdw := p => md(p) && (sel.weeks == [] || WeekHit(p, sel.weeks));
    var mdwt := p => mdw(p) && (sel.types == [] || TypeHit(p, sel.types));
    if sel.mods == [] {
      FilterKeepsAll(items, m);
    } else {
      FilterExt(items, p => ModalityHit(p, sel.mods), m);
    }
    Stage(items, m, p => DeviceHit(p, sel.devs), sel.devs != [], md);
    Stage(items, md, p => WeekHit(p, sel.weeks), sel.weeks != [], mdw);
    Stage(items, mdw, p => TypeHit(p, sel.types), sel.types != [], mdwt);
    Stage(items, mdwt, p => Hit(p, sel.q), sel.q != "", p => Selected(p, sel));
    assert ApplyFilters(items, sel) == Narrow(Filter(items, mdwt), sel.q != "", p => Hit(p, sel.q));
  }

  /** The result is an order-preserving subsequence of the input, each record kept as often as it occurs. */
  lemma ApplyFiltersSubseq(items: seq<Record>, sel: Selection)
    requires forall p :: p in items ==> Filterable(p, sel)
    ensures Subseq(ApplyFilters(items, sel), items)
    ensures forall p :: multiset(ApplyFilters(items, sel))[p] == if Selected(p, sel) then multiset(items)[p] else 0
  {
    ApplyFiltersSelected(items, sel);
    FilterSubseq(items, p => Selected(p, sel));
    FilterMultiset(items, p => Selected(p, sel));
  }

  /** With nothing chosen and no query, the page shows every record. */
  lemma ApplyFiltersNone(items: seq<Record>)
    ensures ApplyFilters(items, Selection([], [], [], [], "")) == items
  {
  }

  /**
   * The search only reads the records the facets kept: a record whose
   * summary is None but whose modality is not chosen is dropped before its
   * text would be joined.
   */
  lemma FacetDroppedNeverSearched()
    ensures var p: Record := map["summary" := Null, "modality" := List([Str("gestos")])];
            var sel := Selection(["voz"], [], [], [], "x");
            Filterable(p, sel) && !Searchable(p) && ApplyFilters([p], sel) == []
  {
    var p: Record := map["summary" := Null, "modality" := List([Str("gestos")])];
    var sel := Selection(["voz"], [], [], [], "x");
    assert !ModalityHit(p, sel.mods);
    assert Filter([p], q => ModalityHit(q, sel.mods)) == [];
  }

  /** An active device or deliverable facet drops a record that lacks the field. */
  lemma MissingFieldDropped(p: Record, sel: Selection)
    requires (sel.devs != [] && "device" !in p) || (sel.types != [] && "deliverable" !in p)
    ensures !Selected(p, sel)
  {
  }

  /** The week facet compares text: a stored int week is kept by its decimal text. */
  lemma WeekFacetText(p: Record, n: int, weeks: seq<Value>)
    requires "week" in p && p["week"] == Int(n)
    requires Str(IntToString(n)) in weeks
    ensures WeekHit(p, weeks)
  {
    var i :| 0 <= i < |weeks| && weeks[i] == Str(IntToString(n));
    assert WeekTexts(weeks)[i] == IntToString(n);
  }

  /** The modality facet keeps a record exactly when its modalities meet the chosen ones. */
  lemma ModalityFacetMeets(p: Record, mods: seq<string>)
    ensures ModalityHit(p, mods) <==> (set m | m in mods) * (set v | v in Modalities(p) && v.Str? :: v.s) != {}
  {
    var chosen := set m | m in mods;
    var held := set v | v in Modalities(p) && v.Str? :: v.s;
    if ModalityHit(p, mods) {
      var m :| m in mods && Str(m) in Modalities(p);
      assert m in chosen * held;
    }
  }

  // ---------------------------------------------------------------- slug lookup

  /** Every record has a `slug`, as `load_projects` guarantees, so `p["slug"]` succeeds. */
  predicate Slugged(projects: seq<Record>) {
    forall p :: p in projects ==> "slug" in p
  }

  /** The position of the first record whose slug is `slug`, if any. */
  function SlugIndex(projects: seq<Record>, slug: string): (r: Option<nat>)
    requires Slugged(projects)
    ensures r.None? <==> forall i :: 0 <= i < |projects| ==> projects[i]["slug"] != Str(slug)
    ensures r.Some? ==> r.value < |projects| && projects[r.value]["slug"] == Str(slug)
    ensures r.Some? ==> forall j :: 0 <= j < r.value ==> projects[j]["slug"] != Str(slug)
  {
    if projects == [] then None
    else if projects[0]["slug"] == Str(slug) then Some(0)
    else
      match SlugIndex(projects[1..], slug)
      case None => None
      case Some(i) => Some(i + 1)
  }

  /**
   * `next((p for p in projects if p["slug"] == slug), None)`: the first
   * record with that slug, or none.
   */
  function FindBySlug(projects: seq<Record>, slug: string): (r: Option<Record>)
    requires Slugged(projects)
    ensures r.None? <==> forall p :: p in projects ==> p["slug"] != Str(slug)
    ensures r.Some? ==> r.value in projects && r.value["slug"] == Str(slug)
  {
    match SlugIndex(projects, slug)
    case None => None
    case Some(i) => Some(projects[i])
  }

  /**
   * The first match in a list of two parts is the first match of the first
   * part if it has one, and otherwise the first match of the second part,
   * shifted past the first.
   */
  lemma SlugIndexAppend(a: seq<Record>, b: seq<Record>, slug: string)
    requires Slugged(a) && Slugged(b)
    ensures Slugged(a + b)
    ensures SlugIndex(a + b, slug) ==
      if SlugIndex(a, slug).Some? then SlugIndex(a, slug)
      else if SlugIndex(b, slug).Some? then Some(|a| + SlugIndex(b, slug).value)
      else None
  {
    assert Slugged(a + b);
    if SlugIndex(a, slug).Some? {
      SlugIndexAppendLeft(a, b, slug);
    } else if SlugIndex(b, slug).Some? {
      SlugIndexAppendRight(a, b, slug);
    } else {
      SlugIndexAppendNone(a, b, slug);
    }
  }

  lemma SlugIndexAppendLeft(a: seq<Record>, b: seq<Record>, slug: string)
    requires Slugged(a) && Slugged(b) && Slugged(a + b)
    requires SlugIndex(a, slug).Some?
    ensures SlugIndex(a + b, slug) == SlugIndex(a, slug)
  {
    var j := SlugIndex(a, slug).value;
    assert (a + b)[j] == a[j];
    forall i | 0 <= i < j
      ensures (a + b)[i]["slug"] != Str(slug)
    {
      assert (a + b)[i] == a[i];
    }
  }

  lemma SlugIndexAppendRight(a: seq<Record>, b: seq<Record>, slug: string)
    requires Slugged(a) && Slugged(b) && Slugged(a + b)
    requires SlugIndex(a, slug).None? && SlugIndex(b, slug).Some?
    ensures SlugIndex(a + b, slug) == Some(|a| + SlugIndex(b, slug).value)
  {
    var k := SlugIndex(b, slug).value;
    assert (a + b)[|a| + k] == b[k];
    NoSlugBefore(a, b, slug, k);
    SlugIndexIs(a + b, slug, |a| + k);
  }

  /** A position holding the slug with none before it is the first match. */
  lemma SlugIndexIs(s: seq<Record>, slug: string, k: nat)
    requires Slugged(s) && k < |s| && s[k]["slug"] == Str(slug)
    requires forall i :: 0 <= i < k ==> s[i]["slug"] != Str(slug)
    ensures SlugIndex(s, slug) == Some(k)
  {
    var r := SlugIndex(s, slug);
    assert r.Some?;
    assert r.value >= k;
  }

  /** Neither `a` nor the first `k` records of `b` carry the slug, so no record of `a + b` before `|a| + k` does. */
  lemma NoSlugBefore(a: seq<Record>, b: seq<Record>, slug: string, k: nat)
    requires Slugged(a) && Slugged(b) && Slugged(a + b) && k <= |b|
    requires forall i :: 0 <= i < |a| ==> a[i]["slug"] != Str(slug)
    requires forall j :: 0 <= j < k ==> b[j]["slug"] != Str(slug)
    ensures forall i :: 0 <= i < |a| + k ==> (a + b)[i]["slug"] != Str(slug)
  {
    forall i | 0 <= i < |a| + k
      ensures (a + b)[i]["slug"] != Str(slug)
    {
      if i < |a| {
        assert (a + b)[i] == a[i];
      } else {
        assert (a + b)[i] == b[i - |a|];
      }
    }
  }

  lemma SlugIndexAppendNone(a: seq<Record>, b: seq<Record>, slug: string)
    requires Slugged(a) && Slugged(b) && Slugged(a + b)
    requires SlugIndex(a, slug).None? && SlugIndex(b, slug).None?
    ensures SlugIndex(a + b, slug).None?
  {
    forall i | 0 <= i < |a + b|
      ensures (a + b)[i]["slug"] != Str(slug)
    {
      if i < |a| {
        assert (a + b)[i] == a[i];
      } else {
        assert (a + b)[i] == b[i - |a|];
      }
    }
  }

  /** Slugs need not be unique: in a list of two parts the first part's match wins. */
  lemma FindBySlugAppend(a: seq<Record>, b: seq<Record>, slug: string)
    requires Slugged(a) && Slugged(b)
    ensures Slugged(a + b)
    ensures FindBySlug(a + b, slug) == if FindBySlug(a, slug).Some? then FindBySlug(a, slug) else FindBySlug(b, slug)
  {
    SlugIndexAppend(a, b, slug);
    if SlugIndex(a, slug).None? && SlugIndex(b, slug).Some? {
      var k := SlugIndex(b, slug).value;
      assert (a + b)[|a| + k] == b[k];
    } else if SlugIndex(a, slug).Some? {
      var j := SlugIndex(a, slug).value;
      assert (a + b)[j] == a[j];
    }
  }

  // ---------------------------------------------------------------- option pools

  /** Python's `a < b` on str: code point by code point, a proper prefix first. */
  predicate LexLess(a: string, b: string)
    decreases |a|
  {
    if a == [] then b != []
    else b != [] && (a[0] < b[0] || (a[0] == b[0] && LexLess(a[1..], b[1..])))
  }

  lemma {:induction false} LexLessIrreflexive(a: string)
    ensures !LexLess(a, a)
    decreases |a|
  {
    if a != [] {
      LexLessIrreflexive(a[1..]);
    }
  }

  lemma {:induction false} LexLessTransitive(a: string, b: string, c: string)
    requires LexLess(a, b) && LexLess(b, c)
    ensures LexLess(a, c)
    decreases |a|
  {
    if a != [] && a[0] == b[0] && b[0] == c[0] {
      LexLessTransitive(a[1..], b[1..], c[1..]);
    }
  }

  /** Any two different strings are ordered one way or the other. */
  lemma {:induction false} LexLessTotal(a: string, b: string)
    ensures a == b || LexLess(a, b) || LexLess(b, a)
    decreases |a|
  {
    if a != [] && b != [] && a[0] == b[0] {
      LexLessTotal(a[1..], b[1..]);
      if a[1..] == b[1..] {
        assert a == [a[0]] + a[1..] && b == [b[0]] + b[1..];
      }
    }
  }

  /** Ascending without repeats: what `sorted` makes of a set of strings. */
  predicate StrictlySorted(s: seq<string>) {
    forall i, j :: 0 <= i < j < |s| ==> LexLess(s[i], s[j])
  }

  /** A strictly sorted list holds each value once. */
  lemma StrictlySortedDistinct(s: seq<string>)
    requires StrictlySorted(s)
    ensures forall i, j :: 0 <= i < j < |s| ==> s[i] != s[j]
  {
    forall i, j | 0 <= i < j < |s|
      ensures s[i] != s[j]
    {
      LexLessIrreflexive(s[i]);
    }
  }

  /** Adds `x` to a sorted list of distinct strings, at its place, unless it is there. */
  function InsertText(x: string, s: seq<string>): (r: seq<string>)
  {
    if s == [] then [x]
    else if x == s[0] then s
    else if LexLess(x, s[0]) then [x] + s
    else [s[0]] + InsertText(x, s[1..])
  }

  lemma {:induction false} InsertTextMembers(x: string, s: seq<string>)
    ensures forall y :: y in InsertText(x, s) <==> y == x || y in s
  {
    if s != [] && x != s[0] && !LexLess(x, s[0]) {
      InsertTextMembers(x, s[1..]);
      assert s == [s[0]] + s[1..];
    }
  }

  lemma {:induction false} InsertTextSorted(x: string, s: seq<string>)
    requires StrictlySorted(s)
    ensures StrictlySorted(InsertText(x, s))
  {
    if s == [] || x == s[0] {
    } else if LexLess(x, s[0]) {
      forall j | 0 <= j < |s|
        ensures LexLess(x, s[j])
      {
        if j > 0 {
          LexLessTransitive(x, s[0], s[j]);
        }
      }
      TextConsSorted(x, s);
    } else {
      LexLessTotal(x, s[0]);
      InsertTextSorted(x, s[1..]);
      InsertTextMembers(x, s[1..]);
      var t := InsertText(x, s[1..]);
      forall j | 0 <= j < |t|
        ensures LexLess(s[0], t[j])
      {
        assert t[j] in t;
        if t[j] != x {
          var k :| 0 <= k < |s[1..]| && s[1..][k] == t[j];
          assert s[k + 1] == t[j];
        }
      }
      TextConsSorted(s[0], t);
    }
  }

  lemma TextConsSorted(x: string, s: seq<string>)
    requires StrictlySorted(s)
    requires forall j :: 0 <= j < |s| ==> LexLess(x, s[j])
    ensures StrictlySorted([x] + s)
  {
    forall i, j | 0 <= i < j < |s| + 1
      ensures LexLess(([x] + s)[i], ([x] + s)[j])
    {
      if i > 0 {
        assert ([x] + s)[i] == s[i - 1];
      }
      assert ([x] + s)[j] == s[j - 1];
    }
  }

  /** `sorted(set(xs))` for strings: the distinct values of `xs`, ascending (SortedSetSpec). */
  function SortedSet(xs: seq<string>): seq<string> {
    if xs == [] then [] else InsertText(xs[0], SortedSet(xs[1..]))
  }

  /** The sorted set is ascending and holds exactly the values of `xs`. */
  lemma {:induction false} SortedSetSpec(xs: seq<string>)
    ensures StrictlySorted(SortedSet(xs))
    ensures forall y :: y in SortedSet(xs) <==> y in xs
  {
    if xs != [] {
      SortedSetSpec(xs[1..]);
      InsertTextSorted(xs[0], SortedSet(xs[1..]));
      InsertTextMembers(xs[0], SortedSet(xs[1..]));
      assert xs == [xs[0]] + xs[1..];
    }
  }

  /** The modalities of all records, in record order: `m for p in projects for m in p.get("modality", [])`. */
  function AllModalities(projects: seq<Record>): seq<string> {
    if projects == [] then [] else Texts(Modalities(projects[0])) + AllModalities(projects[1..])
  }

  lemma {:induction false} AllModalitiesMembers(projects: seq<Record>)
    requires forall p :: p in projects ==> TextListOrAbsent(p, "modality")
    ensures forall m :: m in AllModalities(projects) <==> exists p :: p in projects && Str(m) in Modalities(p)
  {
    if projects != [] {
      var p0 := projects[0];
      AllModalitiesMembers(projects[1..]);
      assert p0 in projects;
      assert forall x :: x in Modalities(p0) ==> x.Str?;
      forall m
        ensures m in Texts(Modalities(p0)) <==> Str(m) in Modalities(p0)
      {
        var xs := Modalities(p0);
        if m in Texts(xs) {
          var i :| 0 <= i < |xs| && Texts(xs)[i] == m;
          assert xs[i] in xs;
        }
        if Str(m) in xs {
          var i :| 0 <= i < |xs| && xs[i] == Str(m);
          assert Texts(xs)[i] == m;
        }
      }
      assert projects == [p0] + projects[1..];
    }
  }

  /** `mod_pool`: every modality any record lists, once each, ascending (ModPoolSpec). */
  function ModPool(projects: seq<Record>): seq<string>
    requires forall p :: p in projects ==> TextListOrAbsent(p, "modality")
  {
    SortedSet(AllModalities(projects))
  }

  lemma ModPoolSpec(projects: seq<Record>)
    requires forall p :: p in projects ==> TextListOrAbsent(p, "modality")
    ensures StrictlySorted(ModPool(projects))
    ensures forall m :: m in ModPool(projects) <==> exists p :: p in projects && Str(m) in Modalities(p)
  {
    SortedSetSpec(AllModalities(projects));
    AllModalitiesMembers(projects);
  }

  /** The truthy str values of field `k`, in record order: `p.get(k) for p in projects if p.get(k)`. */
  function TruthyTexts(projects: seq<Record>, k: string): seq<string> {
    if projects == [] then []
    else
      var v := Get(projects[0], k);
      var here := if Truthy(v) && v.Str? then [v.s] else [];
      here + TruthyTexts(projects[1..], k)
  }

  lemma {:induction false} TruthyTextsMembers(projects: seq<Record>, k: string)
    ensures forall d :: d in TruthyTexts(projects, k) <==> d != "" && exists p :: p in projects && Get(p, k) == Str(d)
  {
    if projects != [] {
      TruthyTextsMembers(projects[1..], k);
      assert projects == [projects[0]] + projects[1..];
    }
  }

  /** `dev_pool`: the distinct non-empty devices, ascending (DevicePoolSpec). */
  function DevicePool(projects: seq<Record>): seq<string>
    requires forall p :: p in projects ==> TextOrFalsy(p, "device")
  {
    SortedSet(TruthyTexts(projects, "device"))
  }

  lemma DevicePoolSpec(projects: seq<Record>)
    requires forall p :: p in projects ==> TextOrFalsy(p, "device")
    ensures StrictlySorted(DevicePool(projects))
    ensures forall d :: d in DevicePool(projects) <==> d != "" && exists p :: p in projects && Get(p, "device") == Str(d)
  {
    SortedSetSpec(TruthyTexts(projects, "device"));
    TruthyTextsMembers(projects, "device");
  }

  /** A blank `device:` (None) passes the guard and is skipped, like an absent one. */
  lemma DevicePoolSkipsBlank()
    ensures var ps: seq<Record> := [map["device" := Null], map["device" := Str("Quest")], map[]];
            (forall p :: p in ps ==> TextOrFalsy(p, "device")) && DevicePool(ps) == ["Quest"]
  {
    var ps: seq<Record> := [map["device" := Null], map["device" := Str("Quest")], map[]];
    assert TruthyTexts(ps, "device") == ["Quest"] by {
      assert ps[1..][1..] == [map[]];
    }
  }

  /** `types`: the distinct non-empty deliverable types, ascending (TypePoolSpec). */
  function TypePool(projects: seq<Record>): seq<string>
    requires forall p :: p in projects ==> TextOrFalsy(p, "deliverable")
  {
    SortedSet(TruthyTexts(projects, "deliverable"))
  }

  lemma TypePoolSpec(projects: seq<Record>)
    requires forall p :: p in projects ==> TextOrFalsy(p, "deliverable")
    ensures StrictlySorted(TypePool(projects))
    ensures forall d :: d in TypePool(projects) <==> d != "" && exists p :: p in projects && Get(p, "deliverable") == Str(d)
  {
    SortedSetSpec(TruthyTexts(projects, "deliverable"));
    TruthyTextsMembers(projects, "deliverable");
  }

  /** `int(x)` succeeds on the week, or the week is falsy and never reaches the pool. */
  predicate WeekKeyed(p: Record) {
    Truthy(Get(p, "week")) ==> PyInt(Get(p, "week")).Some?
  }

  /** The sort key `int(x)` of a week value. */
  function WeekKey(v: Value): int {
    match PyInt(v)
    case Some(i) => i
    case None => 0
  }

  /** The truthy weeks, in record order: `p.get("week") for p in projects if p.get("week")`. */
  function TruthyWeeks(projects: seq<Record>): seq<Value> {
    if projects == [] then []
    else
      var w := Get(projects[0], "week");
      var here := if Truthy(w) then [w] else [];
      here + TruthyWeeks(projects[1..])
  }

  /** Ascending by numeric key. */
  predicate SortedByWeek(s: seq<Value>) {
    forall i, j :: 0 <= i < j < |s| ==> WeekKey(s[i]) <= WeekKey(s[j])
  }

  predicate Distinct(s: seq<Value>) {
    forall i, j :: 0 <= i < j < |s| ==> s[i] != s[j]
  }

  /** Puts `x` in front of the first value whose key is at least its own. */
  function InsertWeek(x: Value, s: seq<Value>): (r: seq<Value>)
    ensures forall y :: y in r <==> y == x || y in s
  {
    if s == [] then [x]
    else if WeekKey(x) <= WeekKey(s[0]) then [x] + s
    else [s[0]] + InsertWeek(x, s[1..])
  }

  lemma {:induction false} InsertWeekSorted(x: Value, s: seq<Value>)
    requires SortedByWeek(s) && Distinct(s) && x !in s
    ensures SortedByWeek(InsertWeek(x, s)) && Distinct(InsertWeek(x, s))
  {
    if s == [] {
    } else if WeekKey(x) <= WeekKey(s[0]) {
      WeekConsSorted(x, s);
    } else {
      InsertWeekSorted(x, s[1..]);
      var t := InsertWeek(x, s[1..]);
      forall j | 0 <= j < |t|
        ensures WeekKey(s[0]) <= WeekKey(t[j]) && s[0] != t[j]
      {
        assert t[j] in t;
        if t[j] != x {
          var k :| 0 <= k < |s[1..]| && s[1..][k] == t[j];
          assert s[k + 1] == t[j];
        }
      }
      WeekConsSorted(s[0], t);
    }
  }

  lemma WeekConsSorted(x: Value, s: seq<Value>)
    requires SortedByWeek(s) && Distinct(s)
    requires forall j :: 0 <= j < |s| ==> WeekKey(x) <= WeekKey(s[j]) && x != s[j]
    ensures SortedByWeek([x] + s) && Distinct([x] + s)
  {
    var t := [x] + s;
    assert forall i :: 0 < i < |t| ==> t[i] == s[i - 1];
    forall i, j | 0 <= i < j < |t|
      ensures WeekKey(t[i]) <= WeekKey(t[j])
    {
      if i > 0 {
        assert WeekKey(s[i - 1]) <= WeekKey(s[j - 1]);
      }
    }
    forall i, j | 0 <= i < j < |t|
      ensures t[i] != t[j]
    {
      if i > 0 {
        assert s[i - 1] != s[j - 1];
      }
    }
  }

  /** `sorted(set(ws), key=int)`: each value once, ascending by its numeric key (WeekPoolSpec). */
  function SortedWeeks(ws: seq<Value>): seq<Value> {
    if ws == [] then []
    else
      var rest := SortedWeeks(ws[1..]);
      if ws[0] in rest then rest else InsertWeek(ws[0], rest)
  }

  lemma {:induction false} SortedWeeksSpec(ws: seq<Value>)
    ensures SortedByWeek(SortedWeeks(ws)) && Distinct(SortedWeeks(ws))
    ensures forall v :: v in SortedWeeks(ws) <==> v in ws
  {
    if ws != [] {
      SortedWeeksSpec(ws[1..]);
      var rest := SortedWeeks(ws[1..]);
      if ws[0] !in rest {
        InsertWeekSorted(ws[0], rest);
      }
      assert ws == [ws[0]] + ws[1..];
    }
  }

  /** `weeks`: the distinct truthy weeks, ascending by `int` (WeekPoolSpec). */
  function WeekPool(projects: seq<Record>): seq<Value>
    requires forall p :: p in projects ==> WeekKeyed(p)
  {
    SortedWeeks(TruthyWeeks(projects))
  }

  lemma {:induction false} TruthyWeeksMembers(projects: seq<Record>)
    ensures forall v :: v in TruthyWeeks(projects) <==> Truthy(v) && exists p :: p in projects && Get(p, "week") == v
  {
    if projects != [] {
      TruthyWeeksMembers(projects[1..]);
      assert projects == [projects[0]] + projects[1..];
    }
  }

  /**
   * The week pool holds each truthy week value once, in ascending numeric
   * order; the int 6 and the str "6" are two entries.
   */
  lemma WeekPoolSpec(projects: seq<Record>)
    requires forall p :: p in projects ==> WeekKeyed(p)
    ensures SortedByWeek(WeekPool(projects)) && Distinct(WeekPool(projects))
    ensures forall v :: v in WeekPool(projects) <==> Truthy(v) && exists p :: p in projects && Get(p, "week") == v
    ensures forall v :: v in WeekPool(projects) ==> PyInt(v).Some?
  {
    SortedWeeksSpec(TruthyWeeks(projects));
    TruthyWeeksMembers(projects);
  }
}

=== FILE: pytext.dfy ===
/**
 * The Python `str` operations the portfolio pipeline relies on, over
 * `seq<char>`: whitespace, `lower`, `strip`, `split`, `join`, `in`,
 * `startswith`, `str(int)` and `int(str)`.
 */
module PyText {
  import opened Options

  /**
   * Python's `str.isspace`, which is also what the `\s` class of the `re`
   * module matches in a str pattern.
   */
  predicate IsSpace(c: char) {
    || c == ' '
    || '\t' <= c <= '\r'
    || '\U{1C}' <= c <= '\U{1F}'
    || c == '\U{85}' || c == '\U{A0}' || c == '\U{1680}'
    || '\U{2000}' <= c <= '\U{200A}'
    || c == '\U{2028}' || c == '\U{2029}' || c == '\U{202F}' || c == '\U{205F}' || c == '\U{3000}'
  }

  predicate NoSpace(s: string) {
    forall i :: 0 <= i < |s| ==> !IsSpace(s[i])
  }

  predicate AllSpace(s: string) {
    forall i :: 0 <= i < |s| ==> IsSpace(s[i])
  }

  // ---------------------------------------------------------------- lower

  /** The upper-case letters of ASCII and Latin-1 (U+00D7, the multiplication sign, is not a letter). */
  predicate IsUpper(c: char) {
    'A' <= c <= 'Z' || ('\U{C0}' <= c <= '\U{DE}' && c != '\U{D7}')
  }

  function LowerChar(c: char): (d: char)
    ensures IsUpper(c) ==> d as int == c as int + 32
    ensures !IsUpper(c) ==> d == c
  {
    if IsUpper(c) then (c as int + 32) as char else c
  }

  /** `s.lower()`: character by character. */
  function Lower(s: string): (r: string)
    ensures |r| == |s|
  {
    seq(|s|, i requires 0 <= i < |s| => LowerChar(s[i]))
  }

  lemma {:induction false} LowerAppend(a: string, b: string)
    ensures Lower(a + b) == Lower(a) + Lower(b)
  {
    assert forall i :: 0 <= i < |a + b| ==> Lower(a + b)[i] == (Lower(a) + Lower(b))[i];
  }

  // ---------------------------------------------------------------- strip

  /** The number of whitespace characters `s` starts with. */
  function LeadingSpaces(s: string): (n: nat)
    ensures n <= |s|
    ensures forall i :: 0 <= i < n ==> IsSpace(s[i])
    ensures n < |s| ==> !IsSpace(s[n])
  {
    if s != [] && IsSpace(s[0]) then 1 + LeadingSpaces(s[1..]) else 0
  }

  /** The number of whitespace characters `s` ends with. */
  function TrailingSpaces(s: string): (n: nat)
    ensures n <= |s|
    ensures forall i :: |s| - n <= i < |s| ==> IsSpace(s[i])
    ensures n < |s| ==> !IsSpace(s[|s| - n - 1])
  {
    if s != [] && IsSpace(s[|s| - 1]) then 1 + TrailingSpaces(s[..|s| - 1]) else 0
  }

  /** No whitespace at either end. */
  predicate Trimmed(s: string) {
    s == [] || (!IsSpace(s[0]) && !IsSpace(s[|s| - 1]))
  }

  /**
   * `s.strip()`: `s` without its leading and trailing whitespace. What is
   * left has none at either end; a string that has none already is
   * returned unchanged.
   */
  function Strip(s: string): (r: string)
    ensures Trimmed(r)
    ensures Trimmed(s) ==> r == s
    ensures |r| <= |s|
  {
    var t := s[LeadingSpaces(s)..];
    t[..|t| - TrailingSpaces(t)]
  }

  /**
   * `strip` removes a run of whitespace at each end and nothing else: `s`
   * is that leading run, the result, and a trailing run.
   */
  lemma StripEnds(s: string)
    ensures LeadingSpaces(s) + |Strip(s)| <= |s|
    ensures s == s[..LeadingSpaces(s)] + Strip(s) + s[LeadingSpaces(s) + |Strip(s)|..]
    ensures AllSpace(s[..LeadingSpaces(s)]) && AllSpace(s[LeadingSpaces(s) + |Strip(s)|..])
  {
    var n := LeadingSpaces(s);
    var t := s[n..];
    var m := TrailingSpaces(t);
    TrimmedParts(s, n, m, Strip(s));
  }

  /**
   * Cutting `n` whitespace characters from the front of `s` and then `m`
   * from the back leaves `r`: `s` is the front run, `r` and the back run.
   */
  lemma TrimmedParts(s: string, n: nat, m: nat, r: string)
    requires n <= |s| && m <= |s| - n
    requires forall i :: 0 <= i < n ==> IsSpace(s[i])
    requires forall i :: |s[n..]| - m <= i < |s[n..]| ==> IsSpace(s[n..][i])
    requires r == s[n..][..|s| - n - m]
    ensures n + |r| <= |s|
    ensures s == s[..n] + r + s[n + |r|..]
    ensures AllSpace(s[..n]) && AllSpace(s[n + |r|..])
  {
    var t := s[n..];
    assert t == r + t[|t| - m..];
    assert s == s[..n] + t;
    assert s[n + |r|..] == t[|t| - m..];
    SpaceEnds(s, n, 0);
    SpaceEnds(t, 0, m);
  }

  /** `s` is its first `n` characters, its middle and its last `m`, and the ends are whitespace. */
  lemma SpaceEnds(s: string, n: nat, m: nat)
    requires n + m <= |s|
    requires forall i :: 0 <= i < n ==> IsSpace(s[i])
    requires forall i :: |s| - m <= i < |s| ==> IsSpace(s[i])
    ensures s == s[..n] + s[n..|s| - m] + s[|s| - m..]
    ensures AllSpace(s[..n]) && AllSpace(s[|s| - m..])
  {
    var post := s[|s| - m..];
    assert forall i :: 0 <= i < |post| ==> post[i] == s[|s| - m + i];
  }

  /** The characters of `s` that are not whitespace, in order. */
  function Visible(s: string): string {
    if s == [] then []
    else if IsSpace(s[0]) then Visible(s[1..])
    else [s[0]] + Visible(s[1..])
  }

  lemma {:induction false} VisibleAppend(a: string, b: string)
    ensures Visible(a + b) == Visible(a) + Visible(b)
    decreases |a|
  {
    if a != [] {
      assert (a + b)[0] == a[0];
      assert (a + b)[1..] == a[1..] + b;
      VisibleAppend(a[1..], b);
    } else {
      assert a + b == b;
    }
  }

  lemma VisibleCons(c: char, s: string)
    ensures Visible([c] + s) == (if IsSpace(c) then [] else [c]) + Visible(s)
  {
    assert ([c] + s)[1..] == s;
  }

  /**
   * `>` and `<` around a gap whose visible characters after the `<` is that of `c`: the
   * pair `><` in front of `c` has the same visible characters.
   */
  lemma VisibleTagPair(t: string, rest: string, c: string)
    requires Visible(t) == "<" + Visible(rest)
    requires Visible(c) == Visible(rest)
    ensures Visible(['>'] + (['<'] + c)) == Visible(['>'] + t)
  {
    VisibleCons('<', c);
    VisibleCons('>', ['<'] + c);
    VisibleCons('>', t);
  }

  /** Leading whitespace holds no visible character. */
  lemma VisibleSkipSpaces(s: string, n: nat)
    requires n <= |s| && AllSpace(s[..n])
    ensures Visible(s) == Visible(s[n..])
  {
    assert s == s[..n] + s[n..];
    VisibleAllSpace(s[..n]);
    VisibleAppend(s[..n], s[n..]);
  }

  lemma {:induction false} VisibleAllSpace(s: string)
    ensures Visible(s) == [] <==> AllSpace(s)
    decreases |s|
  {
    if s != [] {
      VisibleAllSpace(s[1..]);
      if AllSpace(s) {
        assert AllSpace(s[1..]) by {
          assert forall i :: 0 <= i < |s| - 1 ==> s[1..][i] == s[i + 1];
        }
      } else if IsSpace(s[0]) {
        var i :| 0 <= i < |s| && !IsSpace(s[i]);
        assert s[1..][i - 1] == s[i];
      }
    }
  }

  /** Stripping removes only whitespace: the other characters stay, in order. */
  lemma StripVisible(s: string)
    ensures Visible(Strip(s)) == Visible(s)
  {
    StripEnds(s);
    VisibleEnds(s[..LeadingSpaces(s)], Strip(s), s[LeadingSpaces(s) + |Strip(s)|..]);
  }

  /** Whitespace around `r` adds nothing to its visible characters. */
  lemma VisibleEnds(pre: string, r: string, post: string)
    requires AllSpace(pre) && AllSpace(post)
    ensures Visible(pre + r + post) == Visible(r)
  {
    VisibleAppend(pre + r, post);
    VisibleAppend(pre, r);
    VisibleAllSpace(pre);
    VisibleAllSpace(post);
  }

  /** Stripping only removes characters: what holds of every character of `s` holds of every character left. */
  lemma StripKeeps(s: string, P: char -> bool)
    requires forall i :: 0 <= i < |s| ==> P(s[i])
    ensures forall k :: 0 <= k < |Strip(s)| ==> P(Strip(s)[k])
  {
    var a := LeadingSpaces(s);
    var t := s[a..];
    assert forall k :: 0 <= k < |Strip(s)| ==> Strip(s)[k] == t[k] == s[a + k];
  }

  // ---------------------------------------------------------------- split and join

  /** The length of the longest prefix of `s` without whitespace. */
  function WordLen(s: string): (n: nat)
    ensures n <= |s|
    ensures NoSpace(s[..n])
    ensures n < |s| ==> IsSpace(s[n])
  {
    if s == [] || IsSpace(s[0]) then 0 else 1 + WordLen(s[1..])
  }

  /** A token of `split()`: non-empty, without whitespace. */
  predicate IsWord(w: string) {
    w != [] && NoSpace(w)
  }

  /** `s.split()` with no separator: the maximal runs of non-whitespace, in order. */
  function Split(s: string): (r: seq<string>)
    ensures forall w :: w in r ==> IsWord(w)
    decreases |s|
  {
    if s == [] then []
    else if IsSpace(s[0]) then Split(s[1..])
    else
      var n := WordLen(s);
      [s[..n]] + Split(s[n..])
  }

  /** A text without whitespace is one run: `WordLen` reaches its end. */
  lemma {:induction false} WordLenAll(w: string)
    requires NoSpace(w)
    ensures WordLen(w) == |w|
    decreases |w|
  {
    if w != [] {
      WordLenAll(w[1..]);
    }
  }

  /** A word splits into itself: `split()` drops no character of a token. */
  lemma SplitWord(w: string)
    requires IsWord(w)
    ensures Split(w) == [w]
  {
    WordLenAll(w);
    assert w[..|w|] == w && w[|w|..] == [];
  }

  /** `sep.join(parts)`. */
  function Join(sep: string, parts: seq<string>): string {
    if |parts| == 0 then ""
    else if |parts| == 1 then parts[0]
    else parts[0] + sep + Join(sep, parts[1..])
  }

  /** A string made of whitespace alone has no tokens. */
  lemma {:induction false} SplitAllSpace(s: string)
    requires AllSpace(s)
    ensures Split(s) == []
    decreases |s|
  {
    if s != [] {
      SplitAllSpace(s[1..]);
    }
  }

  lemma {:induction false} WordLenBeforeSpace(a: string, c: char, b: string)
    requires NoSpace(a) && IsSpace(c)
    ensures WordLen(a + [c] + b) == |a|
  {
    if a != [] {
      assert (a + [c] + b)[1..] == a[1..] + [c] + b;
      WordLenBeforeSpace(a[1..], c, b);
    }
  }

  /** Tokens of two strings joined by a space are the tokens of the first followed by those of the second. */
  lemma SplitAppend(a: string, b: string)
    ensures Split(a + " " + b) == Split(a) + Split(b)
  {
    SplitAppendSep(a, ' ', b);
  }

  /**
   * The same for any whitespace separator: a tab, a newline or a no-break
   * space between two texts splits them just as a space does.
   */
  lemma {:induction false} SplitAppendSep(a: string, c: char, b: string)
    requires IsSpace(c)
    ensures Split(a + [c] + b) == Split(a) + Split(b)
    decreases |a|
  {
    if a == [] {
      SplitAppendEmpty(c, b);
    } else if IsSpace(a[0]) {
      SplitAppendSep(a[1..], c, b);
      SplitAppendSpaceStep(a, c, b);
    } else {
      var n := WordLen(a);
      if n == |a| {
        SplitFirstWordLast(a, c, b);
      } else {
        SplitAppendSep(a[n..], c, b);
        SplitAppendWordStep(a, c, b, n);
      }
    }
  }

  /** A tab separates tokens like a space: `"a\tb".split()` is `["a", "b"]`. */
  lemma SplitAtTab()
    ensures Split("a\tb") == ["a", "b"]
  {
    SplitAppendSep("a", '\t', "b");
    SplitWord("a");
    SplitWord("b");
    assert "a" + ['\t'] + "b" == "a\tb";
  }

  lemma SplitAppendSpaceStep(a: string, c: char, b: string)
    requires a != [] && IsSpace(a[0])
    requires Split(a[1..] + [c] + b) == Split(a[1..]) + Split(b)
    ensures Split(a + [c] + b) == Split(a) + Split(b)
  {
    SplitAppendSpaceFirst(a, c, b);
  }

  lemma SplitAppendWordStep(a: string, c: char, b: string, n: nat)
    requires a != [] && !IsSpace(a[0]) && n == WordLen(a) && n < |a|
    requires Split(a[n..] + [c] + b) == Split(a[n..]) + Split(b)
    ensures Split(a + [c] + b) == Split(a) + Split(b)
  {
    SeqConsAssoc(a[..n], Split(a[n..]), Split(b));
    SplitAppendWordFirst(a, c, b, n);
  }

  lemma SeqConsAssoc<T>(x: T, u: seq<T>, v: seq<T>)
    ensures [x] + (u + v) == ([x] + u) + v
  {
  }

  lemma SplitAppendEmpty(c: char, b: string)
    requires IsSpace(c)
    ensures Split([] + [c] + b) == Split(b)
  {
    var s := [] + [c] + b;
    assert s[1..] == b;
  }

  lemma SplitAppendSpaceFirst(a: string, c: char, b: string)
    requires a != [] && IsSpace(a[0])
    ensures Split(a) == Split(a[1..])
    ensures Split(a + [c] + b) == Split(a[1..] + [c] + b)
  {
    var s := a + [c] + b;
    assert s[1..] == a[1..] + [c] + b;
  }

  lemma SplitAppendWordFirst(a: string, c: char, b: string, n: nat)
    requires a != [] && !IsSpace(a[0]) && n == WordLen(a) && n < |a|
    ensures Split(a) == [a[..n]] + Split(a[n..])
    ensures Split(a + [c] + b) == [a[..n]] + Split(a[n..] + [c] + b)
  {
    var s := a + [c] + b;
    assert s == a + ([c] + b);
    WordLenPrefix(a, [c] + b, n);
    assert s[..n] == a[..n];
    assert s[n..] == a[n..] + [c] + b;
  }

  lemma SplitFirstWordLast(a: string, c: char, b: string)
    requires a != [] && WordLen(a) == |a| && IsSpace(c)
    ensures Split(a + [c] + b) == Split(a) + Split(b)
  {
    var s := a + [c] + b;
    WordLenBeforeSpace(a, c, b);
    assert NoSpace(a[..|a|]);
    assert a[..|a|] == a && a[|a|..] == [];
    assert !IsSpace(s[0]);
    assert s[..|a|] == a;
    assert Split(s) == [a] + Split(s[|a|..]);
    assert s[|a|..] == [c] + b;
    SplitSpaceFirst(c, b);
    assert Split(a) == [a] + Split([]);
  }

  lemma SplitSpaceFirst(c: char, b: string)
    requires IsSpace(c)
    ensures Split([c] + b) == Split(b)
  {
    assert ([c] + b)[1..] == b;
  }

  /** Appending text to a string does not change a word that already ends in whitespace. */
  lemma {:induction false} WordLenPrefix(a: string, c: string, n: nat)
    requires n < |a| && NoSpace(a[..n]) && IsSpace(a[n])
    ensures WordLen(a + c) == n
  {
    if n > 0 {
      assert (a + c)[1..] == a[1..] + c;
      assert a[1..][..n - 1] == a[..n][1..];
      WordLenPrefix(a[1..], c, n - 1);
    }
  }

  // ---------------------------------------------------------------- substrings

  /** `needle in hay` for two strings. */
  predicate Contains(hay: string, needle: string)
    decreases |hay|
  {
    needle <= hay || (hay != [] && Contains(hay[1..], needle))
  }

  /** A substring of a text is a substring of any longer text that starts with it. */
  lemma {:induction false} ContainsExtend(a: string, b: string, t: string)
    requires Contains(a, t)
    ensures Contains(a + b, t)
    decreases |a|
  {
    if !(t <= a) {
      assert (a + b)[1..] == a[1..] + b;
      ContainsExtend(a[1..], b, t);
    }
  }

  /**
   * The first part of a space-joined list leads the lower-cased join, so
   * every token found in it is found in the whole.
   */
  lemma AllInJoinHead(tokens: seq<string>, parts: seq<string>)
    requires parts != [] && AllIn(tokens, Lower(parts[0]))
    ensures AllIn(tokens, Lower(Join(" ", parts)))
  {
    if |parts| > 1 {
      var rest := " " + Join(" ", parts[1..]);
      assert Join(" ", parts) == parts[0] + rest;
      LowerAppend(parts[0], rest);
      forall t | t in tokens ensures Contains(Lower(Join(" ", parts)), t) {
        ContainsExtend(Lower(parts[0]), Lower(rest), t);
      }
    }
  }

  /** `s.startswith(prefix)`. */
  predicate StartsWith(s: string, prefix: string) {
    prefix <= s
  }

  /** Every token occurs in `hay`: the search test shared by both pages. */
  predicate AllIn(tokens: seq<string>, hay: string) {
    forall t :: t in tokens ==> Contains(hay, t)
  }

  // ---------------------------------------------------------------- integers

  predicate IsDigit(c: char) {
    '0' <= c <= '9'
  }

  predicate AllDigits(s: string) {
    forall i :: 0 <= i < |s| ==> IsDigit(s[i])
  }

  function DigitChar(d: nat): (c: char)
    requires d < 10
    ensures IsDigit(c) && c as int - '0' as int == d
  {
    ('0' as int + d) as char
  }

  /** The decimal digits of `n`, most significant first. */
  function Digits(n: nat): (s: string)
    ensures s != [] && AllDigits(s)
    decreases n
  {
    if n < 10 then [DigitChar(n)] else Digits(n / 10) + [DigitChar(n % 10)]
  }

  /** `str(i)` for an int. */
  function IntToString(i: int): string {
    if i < 0 then "-" + Digits(-i) else Digits(i)
  }

  /** The value of a string of decimal digits. */
  function DigitsValue(s: string): nat
    requires AllDigits(s)
  {
    if s == [] then 0 else DigitsValue(s[..|s| - 1]) * 10 + (s[|s| - 1] as int - '0' as int)
  }

  /**
   * `int(s)` for a str: surrounding whitespace, then an optional sign and
   * at least one decimal digit; anything else raises, shown as `None`.
   */
  function ParseInt(s: string): Option<int> {
    var t := Strip(s);
    if t != [] && (t[0] == '+' || t[0] == '-') then
      var ds := t[1..];
      if ds != [] && AllDigits(ds) then
        var v: int := DigitsValue(ds);
        Some(if t[0] == '-' then -v else v)
      else None
    else if t != [] && AllDigits(t) then Some(DigitsValue(t))
    else None
  }

  lemma {:induction false} DigitsValueOfDigits(n: nat)
    ensures DigitsValue(Digits(n)) == n
    decreases n
  {
    if n >= 10 {
      var s := Digits(n);
      assert s[..|s| - 1] == Digits(n / 10);
      DigitsValueOfDigits(n / 10);
    }
  }

  /** `int(str(i)) == i`: rendering an integer and parsing it back is the identity. */
  lemma {:induction false} ParseIntOfIntToString(i: int)
    ensures ParseInt(IntToString(i)) == Some(i)
  {
    if i < 0 {
      var n: nat := -i;
      assert IntToString(i) == "-" + Digits(n);
      ParseIntOfNegative(n);
    } else {
      var n: nat := i;
      assert IntToString(i) == Digits(n);
      ParseIntOfDigits(n);
    }
  }

  lemma DigitsTrimmed(n: nat)
    ensures Trimmed(Digits(n))
  {
  }

  lemma ParseIntOfDigits(n: nat)
    ensures ParseInt(Digits(n)) == Some(n as int)
  {
    DigitsTrimmed(n);
    assert Strip(Digits(n)) == Digits(n);
    DigitsValueOfDigits(n);
  }

  lemma ParseIntOfNegative(n: nat)
    ensures ParseInt("-" + Digits(n)) == Some(-(n as int))
  {
    var d := Digits(n);
    var s := "-" + d;
    DigitsTrimmed(n);
    assert s[1..] == d;
    assert s[|s| - 1] == d[|d| - 1];
    assert Strip(s) == s;
    DigitsValueOfDigits(n);
  }

  /** `str` is injective on integers. */
  lemma IntToStringInjective(i: int, j: int)
    ensures IntToString(i) == IntToString(j) <==> i == j
  {
    ParseIntOfIntToString(i);
    ParseIntOfIntToString(j);
  }
}

=== FILE: pyvalues.dfy ===
/**
 * The values a project record holds once the YAML file is parsed: Python
 * None, bool, int, str, list and dict, with Python's truthiness, `dict.get`
 * and `str()`/`int()` conversions. A record is a dict with str keys.
 */
module PyValues {
  import opened Options
  import opened PyText

  datatype Value =
    | Null
    | Bool(b: bool)
    | Int(i: int)
    | Str(s: string)
    | List(items: seq<Value>)
    | Dict(entries: map<string, Value>)

  type Record = map<string, Value>

  /** `bool(v)`: None, False, 0 and empty containers are false. */
  predicate Truthy(v: Value) {
    match v
    case Null => false
    case Bool(b) => b
    case Int(i) => i != 0
    case Str(s) => s != ""
    case List(xs) => xs != []
    case Dict(m) => m != map[]
  }

  /** `p.get(k)`: None when the key is absent. */
  function Get(p: Record, k: string): Value {
    if k in p then p[k] else Null
  }

  /** `p.get(k, d)`. */
  function GetOr(p: Record, k: string, d: Value): Value {
    if k in p then p[k] else d
  }

  predicate Scalar(v: Value) {
    v.Null? || v.Bool? || v.Int? || v.Str?
  }

  /**
   * `str(v)` for a scalar. The repr of lists and dicts is not modelled:
   * every caller requires a scalar there.
   */
  function PyStr(v: Value): string {
    match v
    case Null => "None"
    case Bool(b) => if b then "True" else "False"
    case Int(i) => IntToString(i)
    case Str(s) => s
    case _ => ""
  }

  /** `int(v)`, or None where Python raises. */
  function PyInt(v: Value): Option<int> {
    match v
    case Bool(b) => Some(if b then 1 else 0)
    case Int(i) => Some(i)
    case Str(s) => ParseInt(s)
    case _ => None
  }

  predicate IsTextList(v: Value) {
    v.List? && forall x :: x in v.items ==> x.Str?
  }

  /** The strings of a list of str values. */
  function Texts(xs: seq<Value>): (r: seq<string>)
    ensures |r| == |xs|
  {
    seq(|xs|, i requires 0 <= i < |xs| => if xs[i].Str? then xs[i].s else "")
  }

  /** `p.get(k) or ""` is a str: the field is falsy or a str. */
  predicate TextOrFalsy(p: Record, k: string) {
    !Truthy(Get(p, k)) || Get(p, k).Str?
  }

  /** The field is absent or a str, so `p.get(k, "")` is a str. */
  predicate TextOrAbsent(p: Record, k: string) {
    k !in p || p[k].Str?
  }

  /** The field is absent or a list of str, so `" ".join(p.get(k, []))` succeeds. */
  predicate TextListOrAbsent(p: Record, k: string) {
    k !in p || IsTextList(p[k])
  }

  /** `p.get(k, "")` for a field that is absent or a str. */
  function TextField(p: Record, k: string): string {
    if k in p && p[k].Str? then p[k].s else ""
  }

  /** `" ".join(p.get(k, []))` for a field that is absent or a list of str. */
  function JoinedField(p: Record, k: string): string {
    if k in p && p[k].List? then Join(" ", Texts(p[k].items)) else ""
  }
}

=== FILE: seqs.dfy ===
/** Optional values, for lookups that may find nothing. */
module Options {
  datatype Option<+T> = None | Some(value: T)
}

/**
 * Order-preserving filtering of sequences: the meaning of a Python list
 * comprehension `[x for x in xs if keep(x)]`.
 */
module Seqs {

  /** `a` is obtained from `b` by deleting elements, keeping the order of the rest. */
  ghost predicate Subseq<T(!new)>(a: seq<T>, b: seq<T>)
    decreases |b|
  {
    if a == [] then true
    else if b == [] then false
    else (a[0] == b[0] && Subseq(a[1..], b[1..])) || Subseq(a, b[1..])
  }

  /**
   * The elements of `s` that satisfy `keep`, in their original order
   * (FilterSubseq, FilterMultiset).
   */
  function Filter<T(!new)>(s: seq<T>, keep: T -> bool): (r: seq<T>)
    ensures |r| <= |s|
    ensures forall i :: 0 <= i < |r| ==> keep(r[i])
  {
    if s == [] then []
    else
      assert s == [s[0]] + s[1..];
      if keep(s[0]) then [s[0]] + Filter(s[1..], keep) else Filter(s[1..], keep)
  }

  lemma {:induction false} SubseqRefl<T(!new)>(s: seq<T>)
    ensures Subseq(s, s)
  {
    if s != [] {
      SubseqRefl(s[1..]);
    }
  }

  /**
   * Every kept value occurs in the filtered sequence as often as in `s`,
   * every other value not at all; with FilterSubseq this determines the
   * result.
   */
  lemma {:induction false} FilterMultiset<T(!new)>(s: seq<T>, keep: T -> bool)
    ensures forall x :: multiset(Filter(s, keep))[x] == if keep(x) then multiset(s)[x] else 0
  {
    if s != [] {
      FilterMultiset(s[1..], keep);
      assert s == [s[0]] + s[1..];
    }
  }

  /** A value is in the filtered sequence exactly when it is in `s` and kept. */
  lemma FilterMembers<T(!new)>(s: seq<T>, keep: T -> bool)
    ensures forall x :: x in Filter(s, keep) <==> x in s && keep(x)
  {
    FilterMultiset(s, keep);
    forall x
      ensures x in Filter(s, keep) <==> x in s && keep(x)
    {
      assert x in Filter(s, keep) <==> multiset(Filter(s, keep))[x] > 0;
      assert x in s <==> multiset(s)[x] > 0;
    }
  }

  /** The filtered sequence keeps the order of what it keeps. */
  lemma {:induction false} FilterSubseq<T(!new)>(s: seq<T>, keep: T -> bool)
    ensures Subseq(Filter(s, keep), s)
  {
    if s != [] {
      FilterSubseq(s[1..], keep);
      if keep(s[0]) {
        assert ([s[0]] + Filter(s[1..], keep))[1..] == Filter(s[1..], keep);
      } else {
        var r := Filter(s[1..], keep);
        if r != [] {
          assert Subseq(r, s[1..]);
        }
      }
    }
  }

  /** A filter whose predicate holds everywhere leaves the sequence unchanged. */
  lemma {:induction false} FilterKeepsAll<T(!new)>(s: seq<T>, keep: T -> bool)
    requires forall x :: x in s ==> keep(x)
    ensures Filter(s, keep) == s
  {
    if s != [] {
      FilterKeepsAll(s[1..], keep);
    }
  }

  /** Only the values a predicate gives on `s` matter. */
  lemma {:induction false} FilterExt<T(!new)>(s: seq<T>, f: T -> bool, g: T -> bool)
    requires forall x :: x in s ==> f(x) == g(x)
    ensures Filter(s, f) == Filter(s, g)
  {
    if s != [] {
      FilterExt(s[1..], f, g);
    }
  }

  /** Filtering twice is filtering once by the conjunction. */
  lemma {:induction false} FilterFilter<T(!new)>(s: seq<T>, f: T -> bool, g: T -> bool, both: T -> bool)
    requires forall x :: x in s ==> both(x) == (f(x) && g(x))
    ensures Filter(Filter(s, f), g) == Filter(s, both)
  {
    if s != [] {
      FilterFilter(s[1..], f, g, both);
    }
  }

  /** Filtering distributes over concatenation. */
  lemma {:induction false} FilterAppend<T(!new)>(a: seq<T>, b: seq<T>, keep: T -> bool)
    ensures Filter(a + b, keep) == Filter(a, keep) + Filter(b, keep)
  {
    if a == [] {
      assert a + b == b;
    } else {
      assert (a + b)[1..] == a[1..] + b;
      FilterAppend(a[1..], b, keep);
    }
  }

  /**
   * `for x in xs: <update x>` over an array: each element is replaced by
   * `f` of it, in place; the array keeps its length and order.
   */
  method MapInPlace<T>(a: array<T>, f: T --> T)
    requires forall i :: 0 <= i < a.Length ==> f.requires(a[i])
    modifies a
    ensures forall i :: 0 <= i < a.Length ==> a[i] == f(old(a[i]))
  {
    ghost var before := a[..];
    for i := 0 to a.Length
      invariant forall j :: 0 <= j < i ==> a[j] == f(before[j])
      invariant forall j :: i <= j < a.Length ==> a[j] == before[j]
    {
      a[i] := f(a[i]);
    }
  }
}
